=== FILE: README.md ===
# auth-service session lifecycle, in Dafny

A functional model of the authentication core of `auth-service`. It covers the one-time-password
activation challenge, the password-reset challenge, the refresh-token store with rotation, the login
branching, the access-token claims, the administrator bootstrap, and the activation form's constraints.

Every table is a `map` keyed by user id: users, OTP challenges (`otp_request`) and refresh sessions
(`refresh_tokens`). The last two have at most one row per user because of their one-to-one link.
Every service method is a pure transition `(tables, now, random draws) -> (result, tables')`.
What the Java code throws becomes a `Result` failure. Where the source saves changes before throwing
(no surrounding transaction), the step value carries the new table next to the failure.

The program's collaborators become parameters:

- the clock: an `int` instant in milliseconds (`Time`);
- `SecureRandom.nextInt(900000)`: an argument in `[0, 900000)`;
- `UUID.randomUUID()`: a string argument `newValue`;
- the password encoder: an abstract `hash` function, with `matches(raw, h)` meaning `hash(raw) == h` (`Crypto`);
- the JWT library: an abstract `Codec` (compact serialiser and parser). `ValidCodec` says it round-trips.
  Parsing is partial, like the library's: malformed, wrong signing key, or expiration strictly before now.

Modules follow the source files: `Users`, `OtpChallenges`, `RefreshTokens` (entities and tables),
`Jwt`, `OtpService`, `RefreshTokenService`, `AuthService`, `PasswordResetService`, `DataSeeder`,
`UserActivationRequest`. There are also three helpers: `Decimal` (`String.valueOf`), `Wrappers` and `Time`.
`Lifecycle` holds properties that span several services.

## Notes on the code's behaviour

- An access token's subject is the user's username, although the method that reads it is named `extractEmail`.
- `validateOtp` answers with a boolean only: an absent, expired or wrong code all give false.
- The reset challenge is refused once three failures are stored, and this check comes before the code is compared.

## Model

| member | source | states |
|---|---|---|
| `Users.Build` | auth-service/src/main/java/com/drive/authservice/entity/User.java:43-45 | a user built without an explicit flag has `isFirstLogin = true`; every other field is as given |
| `Users.Authorities` | auth-service/src/main/java/com/drive/authservice/entity/User.java:47-50 | exactly one authority: `ROLE_` followed by the role's name |
| `Users.AuthoritiesDetermineRole` | auth-service/src/main/java/com/drive/authservice/entity/User.java:47-50 | two users have the same authorities exactly when they have the same role |
| `Users.FindByEmail` | auth-service/src/main/java/com/drive/authservice/entity/User.java:33-34 | finds a row iff some user has that e-mail, and the row found has it (e-mails are unique) |
| `Users.FindByUsername` | auth-service/src/main/java/com/drive/authservice/entity/User.java:27-28 | finds a row iff some user has that username, and the row found has it (usernames are unique) |
| `Users.FindByEmailUnique` | auth-service/src/main/java/com/drive/authservice/entity/User.java:33-34 | any row carrying the e-mail is the row the lookup returns |
| `Users.FindByUsernameUnique` | auth-service/src/main/java/com/drive/authservice/entity/User.java:27-28 | any row carrying the username is the row the lookup returns |
| `Users.FindByEmailOrUsername` | auth-service/src/main/java/com/drive/authservice/service/AuthService.java:32-34 | the identifier is tried as an e-mail first and as a username only when no e-mail matches |
| `OtpChallenges.Build` | auth-service/src/main/java/com/drive/authservice/entity/PasswordResetOTP.java:19-35 | a new challenge belongs to its user, starts with 0 attempts, and is not used |
| `OtpChallenges.FindByUserEmail` | auth-service/src/main/java/com/drive/authservice/repository/PasswordResetOtpRepository.java:13 | finds the challenge of the user with that e-mail iff both the user and the challenge exist |
| `RefreshTokens.FindByToken` | auth-service/src/main/java/com/drive/authservice/entity/RefreshToken.java:20-21 | finds a row iff some session holds the value; token values are unique, so that is the holder's row |
| `Decimal.ToDecimal` | auth-service/src/main/java/com/drive/authservice/service/OtpService.java:87 | the numeral is non-empty, all digits, and has no leading zero unless the number is 0 |
| `Decimal.ValueOfToDecimal` | auth-service/src/main/java/com/drive/authservice/service/OtpService.java:87 | reading the numeral back gives the number |
| `Decimal.ToDecimalLength` | auth-service/src/main/java/com/drive/authservice/service/OtpService.java:86-87 | a number in `[10^(k-1), 10^k)` is written with exactly k digits |
| `Jwt.BuildToken` | auth-service/src/main/java/com/drive/authservice/service/JwtService.java:48-60 | the token parses back to: the extra claims minus `sub`/`iat`/`exp`, subject = username, issued now, expiring now + lifetime, signed with the service key |
| `Jwt.ExtractAllClaims` | auth-service/src/main/java/com/drive/authservice/service/JwtService.java:77-83 | claims are returned iff the token parses, carries the service key, and its expiration is not strictly before now |
| `Jwt.IsTokenValid` | auth-service/src/main/java/com/drive/authservice/service/JwtService.java:63-70 | answers at all iff the token parses; answers true iff the subject is the user's username and the token is not expired |
| `Jwt.GetEmailFromToken` | auth-service/src/main/java/com/drive/authservice/service/JwtService.java:92-97 | a missing header fails; a value without the `Bearer ` prefix is read unchanged |
| `Jwt.BearerHeaderStripped` | auth-service/src/main/java/com/drive/authservice/service/JwtService.java:92-95 | `getEmailFromToken("Bearer " + t)` equals `extractEmail(t)` for every t |
| `Jwt.GenerateTokenRoundTrip` | auth-service/src/main/java/com/drive/authservice/service/JwtService.java:38-59 | about `Jwt.GenerateToken` and `Jwt.GenerateTokenWithClaims` (both overloads of `generateToken`, which delegate to `buildToken`): a generated token yields its full claims (extra claims included) up to its expiration instant inclusive, and fails as expired after it |
| `Jwt.ExtractEmailRoundTrip` | auth-service/src/main/java/com/drive/authservice/service/JwtService.java:27-40 | about `Jwt.ExtractEmail` (the subject claim) and `Users.GetUsername`: `extractEmail(generateToken(u)) == u.getUsername()` and `isTokenValid(generateToken(u), u)` hold while the token is live |
| `Jwt.ForeignKeyRejected` | auth-service/src/main/java/com/drive/authservice/service/JwtService.java:77-88 | a token signed under another secret fails the signature check |
| `Jwt.ExpiryCheckAfterParseIsFalse` | auth-service/src/main/java/com/drive/authservice/service/JwtService.java:68-74 | about `Jwt.IsTokenExpired` and `Jwt.ExtractExpiration`: once the claims have been read, `isTokenExpired` is false, because the parser already refused expired tokens |
| `OtpService.GenerateRandomOtp` | auth-service/src/main/java/com/drive/authservice/service/OtpService.java:84-88 | the code is exactly six digits with no leading zero, and its value is 100000 + the draw, so it lies in [100000, 999999] |
| `OtpService.GenerateAndSendOtp` | auth-service/src/main/java/com/drive/authservice/service/OtpService.java:25-43 | the user's only challenge afterwards stores the hash of the delivered code, with 0 attempts, not used, and expiry now + 5 minutes; other users' challenges are untouched; the invariants are kept |
| `OtpService.IncrementAttempts` | auth-service/src/main/java/com/drive/authservice/service/OtpService.java:90-98 | the challenge survives with one more attempt iff it had fewer than 3; otherwise it is deleted |
| `OtpService.ValidateOtp` | auth-service/src/main/java/com/drive/authservice/service/OtpService.java:56-82 | true iff a challenge exists, is not expired and matches. Absent: nothing changes. Expired or matched: deleted. A surviving challenge has exactly one more attempt and at most 3. Attempts stay at most 3 and `isUsed` stays false |
| `OtpService.NoChallengeRefusesAll` | auth-service/src/main/java/com/drive/authservice/service/OtpService.java:57-62 | without a challenge, every guess in a run is refused and the table never changes |
| `OtpService.WrongGuessesExhaust` | auth-service/src/main/java/com/drive/authservice/service/OtpService.java:73-98 | k wrong guesses on a live challenge with a attempts are all refused; it survives with a + k attempts while a + k <= 3, and is gone otherwise |
| `OtpService.IssueThenValidate` | auth-service/src/main/java/com/drive/authservice/service/OtpService.java:25-76 | the delivered code is accepted iff it is checked no later than 5 minutes after issue; either way the challenge is gone afterwards |
| `OtpService.FourWrongGuessesLockOut` | auth-service/src/main/java/com/drive/authservice/service/OtpService.java:90-98 | four wrong guesses yield false four times and remove the challenge; after three, the challenge has 3 attempts and the right code still works |
| `RefreshTokenService.CreateRefreshToken` | auth-service/src/main/java/com/drive/authservice/service/RefreshTokenService.java:32-50 | fails iff no user has the e-mail, or another user's row holds the new value. Otherwise the user's single row has the new value and expiry now + lifetime, the old value matches nothing, other users are untouched, and value uniqueness is kept |
| `RefreshTokenService.VerifyExpiration` | auth-service/src/main/java/com/drive/authservice/service/RefreshTokenService.java:52-58 | fails, deleting the row, iff the expiry is strictly before now; otherwise returns the same token and changes nothing |
| `RefreshTokenService.ValidAtDeadline` | auth-service/src/main/java/com/drive/authservice/service/RefreshTokenService.java:53 | a session is accepted at its exact expiry instant and refused one millisecond later |
| `RefreshTokenService.RevokeToken` | auth-service/src/main/java/com/drive/authservice/service/RefreshTokenService.java:63-65 | afterwards no row holds the value; an unknown value changes nothing; a known one removes exactly its holder's row |
| `RefreshTokenService.RevokeIdempotent` | auth-service/src/main/java/com/drive/authservice/service/RefreshTokenService.java:63-65 | revoking twice is the same as revoking once |
| `RefreshTokenService.Rotate` | auth-service/src/main/java/com/drive/authservice/service/RefreshTokenService.java:84-92 | succeeds iff the owner has an e-mail and no other user's row holds the new value. On success the owner's only row holds the new value, the access token is the owner's, other users are untouched, and the old value is dead. On failure the table is rolled back |
| `RefreshTokenService.ProcessRefreshTokenAsWritten` | auth-service/src/main/java/com/drive/authservice/service/RefreshTokenService.java:77-92 | an unknown value fails as not in the database, and an expired one fails as expired. A found, live value is rotated iff its owner has an e-mail and no other user's row holds the new value. Every failure leaves the table as it was, because the transaction rolls back, including the delete done for an expired row. A success is the same step as the corrected rotation: the row was found and live, the owner now holds exactly the new value, the access token is the owner's, and the old value is dead |
| `RefreshTokenService.ExpiredRowSurvivesAsWritten` | auth-service/src/main/java/com/drive/authservice/service/RefreshTokenService.java:77-82 | as written, an expired value fails as expired but its row is still there afterwards |
| `RefreshTokenService.ProcessRefreshToken` | auth-service/src/main/java/com/drive/authservice/service/RefreshTokenService.java:77-92 | an unknown value fails and changes nothing; an expired one fails and deletes its row; a found, live value is rotated iff its owner has an e-mail and no other user's row holds the new value; success means the row was found and live, the owner now holds exactly the new value, the access token is the owner's, and the old value is dead |
| `RefreshTokenService.ReplayAfterRotationFails` | auth-service/src/main/java/com/drive/authservice/service/RefreshTokenService.java:80-92 | after a successful rotation, presenting the old value again fails as not in the database and changes nothing |
| `RefreshTokenService.ReplayAfterRotationFailsAsWritten` | auth-service/src/main/java/com/drive/authservice/service/RefreshTokenService.java:80-92 | for the code as written too, presenting a value again after its successful rotation fails as not in the database and changes nothing |
| `RefreshTokenService.ExpiredRowRemoved` | auth-service/src/main/java/com/drive/authservice/service/RefreshTokenService.java:53-55 | once an expired value is refused, trying it again fails as unknown |
| `RefreshTokenService.RotationAccessTokenNamesOwner` | auth-service/src/main/java/com/drive/authservice/service/RefreshTokenService.java:85-91 | the access token returned by a rotation carries the session owner's username while it is live |
| `AuthService.StateOf` | auth-service/src/main/java/com/drive/authservice/service/AuthService.java:36-51 | an identity is active exactly when its first login is behind it |
| `AuthService.Authenticate` | auth-service/src/main/java/com/drive/authservice/service/AuthService.java:25-30 | succeeds iff the identifier resolves to a user whose stored encoding matches the password; the account flags never refuse anyone (`Users.AccountUsable` combines the four flags, each always true as in User.java:62-72) |
| `AuthService.GenerateTokensAndResponse` | auth-service/src/main/java/com/drive/authservice/service/AuthService.java:54-64 | succeeds iff the user has an e-mail that resolves and no other user's row holds the new value; success carries the user's access token, and a refresh value equal to the user's single stored session; a failure is always a refresh failure |
| `AuthService.Login` | auth-service/src/main/java/com/drive/authservice/service/AuthService.java:24-52 | fails with bad credentials iff authentication fails, and never as "user not found". Pending admin: setup required, no table touched. Pending user: activation required, one fresh challenge for that user whose hash is the delivered code's, no tokens. Active: success iff the user has an e-mail and no other user's row already holds the new value, otherwise a refresh failure; on success the returned refresh value is the user's only stored session, and the access token is theirs. The user table is only read |
| `AuthService.ActiveLoginIssuesSession` | auth-service/src/main/java/com/drive/authservice/service/AuthService.java:51-56 | when only a pending admin lacks an e-mail, an authenticated active identity always gets a session, provided the drawn value is not already in use |
| `AuthService.ActivationCodeAccepted` | auth-service/src/main/java/com/drive/authservice/service/AuthService.java:43-49 | the code delivered by an activation-required login validates within the next five minutes |
| `PasswordResetService.IncrementAttempts` | auth-service/src/main/java/com/drive/authservice/service/PasswordResetService.java:79-82 | the challenge stays, with exactly one more attempt; nothing else changes |
| `PasswordResetService.VerifyOtp` | auth-service/src/main/java/com/drive/authservice/service/PasswordResetService.java:27-57 | no challenge: fails with no change. Success iff live, fewer than 3 attempts and matching; it then deletes the challenge and returns a token with `type = RESET` for the user. Expired: fails as expired and deletes the challenge. Live with 3 or more attempts: fails as too many attempts and deletes it. Live, under 3 attempts, wrong code: fails as invalid with exactly one more attempt, challenge kept. The bound of 3 is kept |
| `PasswordResetService.GenerateOtp` | auth-service/src/main/java/com/drive/authservice/service/PasswordResetService.java:73-77 | six digits with no leading zero, whose value is exactly 100000 plus the `nextInt(900000)` draw, so in [100000, 999999] |
| `PasswordResetService.ResetPasswordAsWritten` | auth-service/src/main/java/com/drive/authservice/service/PasswordResetService.java:60-71 | succeeds iff the token parses, its subject is some user's e-mail, and `isTokenValid` holds for that user; then only that user's password changes, to the encoding of the new one |
| `PasswordResetService.VerifiedTokenRejectedAsWritten` | auth-service/src/main/java/com/drive/authservice/service/PasswordResetService.java:61-63 | as written, the token from `verifyOtp` is refused whenever no account's e-mail equals the user's username |
| `PasswordResetService.AccessTokenResetsPasswordAsWritten` | auth-service/src/main/java/com/drive/authservice/service/PasswordResetService.java:60-71 | as written, a plain access token with no `type` claim changes the password of an account whose e-mail equals its username |
| `PasswordResetService.ResetPassword` | auth-service/src/main/java/com/drive/authservice/service/PasswordResetService.java:60-71 | succeeds iff the token is live and signed, its subject is a username, and it carries `type = RESET`; only that user's password changes |
| `PasswordResetService.ResetAfterVerifySucceeds` | auth-service/src/main/java/com/drive/authservice/service/PasswordResetService.java:51-71 | the token a successful `verifyOtp` returns lets the same user set the new password while it is live |
| `PasswordResetService.AccessTokenRejected` | auth-service/src/main/java/com/drive/authservice/service/PasswordResetService.java:52-67 | the corrected reset refuses an ordinary access token |
| `PasswordResetService.ThreeWrongCodesLockOut` | auth-service/src/main/java/com/drive/authservice/service/PasswordResetService.java:38-48 | three wrong codes are each refused as invalid; the fourth call is refused as too many attempts even with the right code, and the challenge is gone |
| `PasswordResetService.LockoutRulesDiffer` | auth-service/src/main/java/com/drive/authservice/service/PasswordResetService.java:39-42 | with 3 stored attempts and the right code, activation validation accepts while reset verification refuses |
| `DataSeeder.AdminRow` | auth-service/src/main/java/com/drive/authservice/config/DataSeeder.java:29-35 | the seeded row is an ADMIN with no e-mail, a pending first login, the configured username, and the encoding of the configured password |
| `DataSeeder.Insert` | auth-service/src/main/java/com/drive/authservice/config/DataSeeder.java:37 | saving succeeds iff the username is not taken, and keeps the table's constraints |
| `DataSeeder.InitAdminAsWritten` | auth-service/src/main/java/com/drive/authservice/config/DataSeeder.java:24-40 | nothing changes when a user named `admin` exists. Otherwise it fails iff the configured username is taken, and on success the configured admin row is added |
| `DataSeeder.SecondStartFailsAsWritten` | auth-service/src/main/java/com/drive/authservice/config/DataSeeder.java:27-30 | with a configured username other than `admin`, the first start succeeds and the second fails on the unique username |
| `DataSeeder.InitAdmin` | auth-service/src/main/java/com/drive/authservice/config/DataSeeder.java:24-40 | a user with the configured username exists afterwards; the admin row is added iff that username was free, and the constraints are kept |
| `DataSeeder.InitAdminIdempotent` | auth-service/src/main/java/com/drive/authservice/config/DataSeeder.java:27 | a second run of the corrected seeder changes nothing |
| `DataSeeder.SeedKeepsIdentityInvariant` | auth-service/src/main/java/com/drive/authservice/config/DataSeeder.java:32-34 | seeding keeps "only a pending admin lacks an e-mail" |
| `UserActivationRequest.ScanPassword` | auth-service/src/main/java/com/drive/authservice/dto/UserActivationRequest.java:22 | each flag is set iff some character of that class (ASCII digit, lower, upper, line terminator) occurs |
| `UserActivationRequest.Violations` | auth-service/src/main/java/com/drive/authservice/dto/UserActivationRequest.java:11-24 | one violation per failing annotation: four non-blank checks, minimum size, pattern |
| `UserActivationRequest.NewPasswordRule` | auth-service/src/main/java/com/drive/authservice/dto/UserActivationRequest.java:20-23 | a present new password is accepted iff it has at least 8 characters, a digit, a lower-case and an upper-case letter, and no line terminator |
| `UserActivationRequest.PatternSubsumesNotBlankAndSize` | auth-service/src/main/java/com/drive/authservice/dto/UserActivationRequest.java:20-23 | a password the pattern accepts is also non-blank and long enough |
| `UserActivationRequest.OtpOnlyNeedsNonBlank` | auth-service/src/main/java/com/drive/authservice/dto/UserActivationRequest.java:17-18 | replacing the code of a valid request by any non-blank text keeps it valid |
| `Lifecycle.SeededAdminNeedsSetup` | auth-service/src/main/java/com/drive/authservice/service/AuthService.java:32-41 | the freshly seeded admin, logging in with the configured credentials, gets setup required and no table changes |
| `Lifecycle.LoginRefreshReplay` | auth-service/src/main/java/com/drive/authservice/service/RefreshTokenService.java:77-92 | the refresh value from a successful login can be exchanged once while live; presenting it again is refused as unknown |

## Left out

- HTTP and framework wiring is not modelled: the controller, security configuration, JWT filter, application configuration, properties classes and repository interfaces. Repositories are the maps above.
- Cookie construction in `revokeToken` and `processRefreshToken` is transport only. The new refresh value is returned as a plain field.
- Console output is left out. The delivered OTP is the `sentCode` output.
- HMAC-SHA256 signing and Base64 key decoding are abstract. This includes the library's refusal of a secret shorter than 256 bits. A token is signed with the service secret, and verification compares secrets.
- BCrypt salting is not modelled: the encoder is a deterministic function.
- `SecureRandom` and `UUID` are argument values.
- Dates in a token: the library writes them in whole seconds. The model keeps milliseconds.
- `buildToken` reads the clock twice (issued-at, then expiration). The model uses a single `now`.
- Jwt.IsTokenValid: reads the clock three times in the source, so a token can expire between the two parses and the second would then throw. The model evaluates both parses and the comparison at one `now`, so it answers instead of failing in that window.
- OTP expiry uses `LocalDateTime.now()`, the server zone's wall clock (OtpService.java:36 and :67). Across a daylight-saving change the source's five-minute window lasts about 65 minutes or about 2 minutes. The model uses one monotonic millisecond clock, so its window is always exactly five minutes.
- Deadlines are computed with unbounded integers. The source's `System.currentTimeMillis() + expiration` (JwtService.java:57) is a 64-bit sum that wraps near `Long.MAX_VALUE`, and `Instant.plusMillis` (RefreshTokenService.java:47) throws there. Neither overflow is modelled.
- Extra claims named like other registered claims (`nbf`, `aud`, …) are carried but not interpreted.
- Concurrency: races on the OTP counter or on rotation are not modelled. Each operation is one sequential step. `@Transactional` on `processRefreshToken` is modelled only as rollback of the whole call when it throws.
- A null `role` would make `login` and `getAuthorities` throw. The model's role is always ADMIN or USER (`Role.java` is not part of this model).
- A null e-mail reaching `createRefreshToken`: the repository would query `IS NULL`; the model finds no user. `AuthService.ActiveLoginIssuesSession` shows that login cannot reach this case while only a pending admin lacks an e-mail.
- Row ids of the OTP and refresh tables are not modelled. Rows are filed under their owner, so reusing a row and inserting a new one look the same.
- A `null` parameter to the JWT methods other than `getEmailFromToken`'s header is not modelled.
- Token claims without a subject are not modelled: every token this service signs has one.
- `@Size` counts UTF-16 code units; the model counts characters. The two differ only for characters outside the Basic Multilingual Plane, and the pattern (which counts characters) already demands eight.
- `verifyOtp`'s second `findByEmail(...).orElseThrow()` is modelled as reusing the user found for the challenge. It cannot fail there.
- The `attempts` column is a Java `Integer`. The model uses unbounded integers; stored values never exceed 3, so no wrap-around occurs.
- Admin setup and account activation are not modelled. The controller calls `setupAdmin` and `activateAccount`, but the service class does not define them. Likewise, `login` takes one argument in the service and two at its call site.
- `LoginRequest` is not modelled. It carries only two non-blank checks.
- `AuthService.Login`: "the user record is not modified" is a property of the signature: the user table is an input and is not returned.

## Findings

| source | as written | input that shows it | evidently intended | confidence | as-written member | corrected member |
|---|---|---|---|---|---|---|
| auth-service/src/main/java/com/drive/authservice/config/DataSeeder.java:27 | the guard looks for the literal username `admin`; the row it inserts uses the configured username | configured username `root` on an empty table: the first start creates `root`, and the second start inserts `root` again, which the unique constraint refuses, aborting start-up | guard on the configured username, so that every start after the first changes nothing | medium, not executed | `DataSeeder.InitAdminAsWritten`, `DataSeeder.SecondStartFailsAsWritten` | `DataSeeder.InitAdmin`, `DataSeeder.InitAdminIdempotent` |
| auth-service/src/main/java/com/drive/authservice/service/RefreshTokenService.java:53-55 | `verifyExpiration` deletes the expired row and throws. Inside `@Transactional processRefreshToken` the exception rolls the delete back, so the row stays | a stored value whose expiry is before now: the refresh fails as expired and the row is still there | the expired row is removed for good | medium, not executed | `RefreshTokenService.ProcessRefreshTokenAsWritten`, `RefreshTokenService.ExpiredRowSurvivesAsWritten` | `RefreshTokenService.ProcessRefreshToken`, `RefreshTokenService.ExpiredRowRemoved` |
| auth-service/src/main/java/com/drive/authservice/service/PasswordResetService.java:61-62 | the token's subject, which is the username, is looked up with `findByEmail` | user `alice` with e-mail `alice@x.com`: `verifyOtp` returns a token with subject `alice`, and `resetPassword` with that token fails with "User not found" | resolve the subject as the username it is | high, not executed | `PasswordResetService.ResetPasswordAsWritten`, `PasswordResetService.VerifiedTokenRejectedAsWritten` | `PasswordResetService.ResetPassword`, `PasswordResetService.ResetAfterVerifySucceeds` |
| auth-service/src/main/java/com/drive/authservice/service/PasswordResetService.java:65 | only `isTokenValid` is checked; the `type = RESET` claim set at line 52 is never read | an account whose e-mail equals its username presents its ordinary login access token: the password is changed | accept only tokens carrying `type = RESET` | medium, not executed | `PasswordResetService.ResetPasswordAsWritten`, `PasswordResetService.AccessTokenResetsPasswordAsWritten` | `PasswordResetService.ResetPassword`, `PasswordResetService.AccessTokenRejected` |

=== FILE: auth_service.dfy ===
/**
 * `AuthService.login`: authenticate, then branch on the identity's state. A pending administrator is
 * sent to setup, a pending user receives an activation code, and an active identity gets a session.
 */
module AuthService {
  import opened Wrappers
  import opened Users
  import Time
  import Crypto
  import Jwt
  import OtpChallenges
  import RefreshTokens
  import OtpService
  import RefreshTokenService

  datatype AuthError = BadCredentials | UserNotFound | RefreshFailed(cause: RefreshTokenService.RefreshError)

  /** The `status` of the response, with the tokens only the successful branch carries. */
  datatype LoginResponse =
    | AdminSetupRequired
    | ActivationRequired
    | LoginSuccess(accessToken: string, refreshToken: string)

  /** The response, the two tables afterwards, and the activation code delivered, if one was. */
  datatype LoginStep = LoginStep(
    response: LoginResponse,
    otps: OtpChallenges.OtpTable,
    tokens: RefreshTokens.TokenTable,
    sentCode: Option<string>)

  /** The collaborators `login` is wired to. */
  datatype Services = Services(encoder: Crypto.PasswordEncoder, refresh: RefreshTokenService.Settings)

  /** The state of an identity as `login` observes it. */
  datatype IdentityState = AdminPendingSetup | UserPendingActivation | Active

  function StateOf(u: User): (s: IdentityState)
    ensures s == Active <==> !u.isFirstLogin
  {
    if !u.isFirstLogin then Active
    else
      match u.role
      case ADMIN => AdminPendingSetup
      case USER => UserPendingActivation
  }

  /**
   * `authenticationManager.authenticate`: the identifier is resolved as an e-mail, then as a username;
   * the account flags are consulted and the password must match the stored encoding.
   */
  function Authenticate(users: UserTable, identifier: string, password: string, encoder: Crypto.PasswordEncoder): (r: Option<User>)
    requires Wf(users)
    ensures r.Some? <==>
      FindByEmailOrUsername(users, identifier).Some?
      && Crypto.Matches(encoder, password, FindByEmailOrUsername(users, identifier).value.password)
    ensures r.Some? ==> r == FindByEmailOrUsername(users, identifier)
  {
    match FindByEmailOrUsername(users, identifier)
    case None => None
    case Some(u) => if AccountUsable(u) && Crypto.Matches(encoder, password, u.password) then Some(u) else None
  }

  /** `generateTokensAndResponse`: an access token, then the user's single refresh session. */
  function GenerateTokensAndResponse(services: Services, users: UserTable, tokens: RefreshTokens.TokenTable, user: User,
                                     now: Time.Instant, newValue: string): (r: Result<(LoginResponse, RefreshTokens.TokenTable), AuthError>)
    requires Wf(users) && RefreshTokens.Wf(tokens)
    ensures r.Success? ==>
      && r.value.0.LoginSuccess?
      && r.value.0.accessToken == Jwt.GenerateToken(services.refresh.jwt, user, now)
      && user.email.Some? && HasEmail(users, user.email.value)
      && var owner := FindByEmail(users, user.email.value).value.id;
         owner in r.value.1 && r.value.1[owner].token == r.value.0.refreshToken && r.value.0.refreshToken == newValue
         && RefreshTokens.Wf(r.value.1)
         && (RefreshTokens.LinkedTo(tokens, users) ==> RefreshTokens.LinkedTo(r.value.1, users))
    ensures r.Success? <==>
      && user.email.Some? && HasEmail(users, user.email.value)
      && !RefreshTokens.HeldByOther(tokens, FindByEmail(users, user.email.value).value.id, newValue)
    ensures r.Failure? ==> r.error.RefreshFailed?
  {
    var accessToken := Jwt.GenerateToken(services.refresh.jwt, user, now);
    match RefreshTokenService.CreateRefreshToken(services.refresh, users, tokens, user.email, now, newValue)
    case Failure(e) => Failure(RefreshFailed(e))
    case Success(issued) => Success((LoginSuccess(accessToken, issued.row.token), issued.tokens))
  }

  /**
   * `login`. The user table is only read. `random` is the draw for a possible activation code and
   * `newValue` the UUID for a possible refresh session.
   */
  function Login(services: Services, users: UserTable, otps: OtpChallenges.OtpTable, tokens: RefreshTokens.TokenTable,
                 identifier: string, password: string, now: Time.Instant, random: int, newValue: string): (r: Result<LoginStep, AuthError>)
    requires Wf(users) && RefreshTokens.Wf(tokens)
    requires 0 <= random < OtpService.OTP_SPAN
    ensures r == Failure(BadCredentials) <==> Authenticate(users, identifier, password, services.encoder).None?
    ensures r != Failure(UserNotFound)
    ensures r.Success? ==>
      var user := FindByEmailOrUsername(users, identifier).value;
      && (r.value.response == AdminSetupRequired <==> StateOf(user) == AdminPendingSetup)
      && (r.value.response == ActivationRequired <==> StateOf(user) == UserPendingActivation)
      && (r.value.response.LoginSuccess? <==> StateOf(user) == Active)
      && (!r.value.response.ActivationRequired? ==> r.value.otps == otps && r.value.sentCode.None?)
      && (!r.value.response.LoginSuccess? ==> r.value.tokens == tokens)
      && (r.value.response.ActivationRequired? ==>
            && r.value.sentCode.Some? && user.id in r.value.otps
            && r.value.otps[user.id].otpHash == Crypto.Encode(services.encoder, r.value.sentCode.value)
            && r.value.otps[user.id].attempts == 0
            && OtpChallenges.OthersUnchanged(otps, r.value.otps, user.id))
      && (r.value.response.LoginSuccess? ==>
            && user.email.Some? && user.id in r.value.tokens
            && r.value.tokens[user.id].token == r.value.response.refreshToken
            && r.value.response.accessToken == Jwt.GenerateToken(services.refresh.jwt, user, now)
            && RefreshTokens.OthersUnchanged(tokens, r.value.tokens, user.id))
      && RefreshTokens.Wf(r.value.tokens)
      && (RefreshTokens.LinkedTo(tokens, users) ==> RefreshTokens.LinkedTo(r.value.tokens, users))
    ensures r.Failure? && r.error.RefreshFailed? ==>
      StateOf(FindByEmailOrUsername(users, identifier).value) == Active
    ensures Authenticate(users, identifier, password, services.encoder).Some?
            && StateOf(FindByEmailOrUsername(users, identifier).value) == Active ==>
      var user := FindByEmailOrUsername(users, identifier).value;
      (r.Success? <==> user.email.Some? && !RefreshTokens.HeldByOther(tokens, user.id, newValue))
  {
    if Authenticate(users, identifier, password, services.encoder).None? then
      Failure(BadCredentials)
    else
      match FindByEmailOrUsername(users, identifier)
      case None => Failure(UserNotFound)
      case Some(user) =>
        if user.role == ADMIN && user.isFirstLogin then
          Success(LoginStep(AdminSetupRequired, otps, tokens, None))
        else if user.role == USER && user.isFirstLogin then
          var issue := OtpService.GenerateAndSendOtp(otps, user, now, random, services.encoder);
          Success(LoginStep(ActivationRequired, issue.otps, tokens, Some(issue.sentCode)))
        else
          assert user.email.Some? ==> FindByEmail(users, user.email.value) == Some(user) by {
            if user.email.Some? { FindByEmailUnique(users, user.email.value, user.id); }
          }
          match GenerateTokensAndResponse(services, users, tokens, user, now, newValue)
          case Failure(e) => Failure(e)
          case Success(session) =>
            FindByEmailUnique(users, user.email.value, user.id);
            Success(LoginStep(session.0, otps, session.1, None))
  }

  /**
   * Under the identity invariant an active identity always has an e-mail, so an authenticated active
   * identity gets a session unless another user's row already holds the drawn value.
   */
  lemma ActiveLoginIssuesSession(services: Services, users: UserTable, otps: OtpChallenges.OtpTable,
                                 tokens: RefreshTokens.TokenTable, identifier: string, password: string,
                                 now: Time.Instant, random: int, newValue: string)
    requires Wf(users) && RefreshTokens.Wf(tokens) && EmailOnlyMissingForPendingAdmin(users)
    requires 0 <= random < OtpService.OTP_SPAN
    requires Authenticate(users, identifier, password, services.encoder).Some?
    requires StateOf(FindByEmailOrUsername(users, identifier).value) == Active
    requires !RefreshTokens.HasToken(tokens, newValue)
    ensures Login(services, users, otps, tokens, identifier, password, now, random, newValue).Success?
  {
    var user := FindByEmailOrUsername(users, identifier).value;
    assert user.email.Some?;
    FindByEmailUnique(users, user.email.value, user.id);
  }

  /** A pending user's login leaves one challenge, answered by the delivered code until it expires. */
  lemma ActivationCodeAccepted(services: Services, users: UserTable, otps: OtpChallenges.OtpTable,
                               tokens: RefreshTokens.TokenTable, identifier: string, password: string,
                               now: Time.Instant, random: int, newValue: string, at: Time.Instant)
    requires Wf(users) && RefreshTokens.Wf(tokens)
    requires 0 <= random < OtpService.OTP_SPAN
    requires Login(services, users, otps, tokens, identifier, password, now, random, newValue).Success?
    requires Login(services, users, otps, tokens, identifier, password, now, random, newValue).value.response == ActivationRequired
    requires now <= at <= now + OtpService.OTP_VALIDITY_MILLIS
    ensures var step := Login(services, users, otps, tokens, identifier, password, now, random, newValue).value;
      var user := FindByEmailOrUsername(users, identifier).value;
      OtpService.ValidateOtp(step.otps, user, step.sentCode.value, at, services.encoder).valid
  {
    var user := FindByEmailOrUsername(users, identifier).value;
    OtpService.IssueThenValidate(otps, user, now, random, services.encoder, at);
  }
}

=== FILE: crypto.dfy ===
/** The one-way password encoder, kept abstract: an encoding function and the matching test derived from it. */
module Crypto {

  /** `PasswordEncoder`: `hash` stands for the encoding of a raw secret (BCrypt in the service). */
  datatype PasswordEncoder = PasswordEncoder(hash: string -> string)

  function Encode(encoder: PasswordEncoder, raw: string): string
  {
    encoder.hash(raw)
  }

  /** `matches(raw, encoded)`: the raw secret is the one that was encoded. */
  predicate Matches(encoder: PasswordEncoder, raw: string, encoded: string)
  {
    encoder.hash(raw) == encoded
  }
}

=== FILE: data_seeder.dfy ===
/**
 * `DataSeeder.initAdmin`: at start-up, create the administrator awaiting setup (no e-mail, first login
 * pending) with the configured username and the encoding of the configured password.
 */
module DataSeeder {
  import opened Wrappers
  import opened Users
  import Crypto

  /** The `auth.admin` configuration. */
  datatype AdminConfig = AdminConfig(username: string, password: string)

  /** Saving a second row with an existing username breaks the unique constraint and aborts start-up. */
  datatype SeedError = DuplicateUsername

  const DEFAULT_ADMIN: string := "admin"

  /** The row the seeder saves; `id` is the identity the table assigns and `now` the creation time. */
  function AdminRow(config: AdminConfig, encoder: Crypto.PasswordEncoder, id: UserId, now: int): (u: User)
    ensures u.role == ADMIN && u.isFirstLogin && u.email.None?
    ensures u.username == config.username && u.password == Crypto.Encode(encoder, config.password)
    ensures u.id == id
  {
    Build(id, config.username, Crypto.Encode(encoder, config.password), None, now, ADMIN)
  }

  /** `save` of a new row, with the unique-username constraint. */
  function Insert(users: UserTable, u: User): (r: Result<UserTable, SeedError>)
    requires Wf(users) && u.id !in users && u.email.None?
    ensures r.Success? <==> !HasUsername(users, u.username)
    ensures r.Success? ==> r.value == users[u.id := u] && Wf(r.value)
  {
    if HasUsername(users, u.username) then Failure(DuplicateUsername) else Success(users[u.id := u])
  }

  /** `initAdmin` as written: the guard asks for the literal username `admin`, not the configured one. */
  function InitAdminAsWritten(users: UserTable, config: AdminConfig, encoder: Crypto.PasswordEncoder,
                              id: UserId, now: int): (r: Result<UserTable, SeedError>)
    requires Wf(users) && id !in users
    ensures HasUsername(users, DEFAULT_ADMIN) ==> r == Success(users)
    ensures r.Failure? <==> !HasUsername(users, DEFAULT_ADMIN) && HasUsername(users, config.username)
    ensures r.Success? && !HasUsername(users, DEFAULT_ADMIN) ==>
      r.value == users[id := AdminRow(config, encoder, id, now)]
  {
    if FindByUsername(users, DEFAULT_ADMIN).None? then Insert(users, AdminRow(config, encoder, id, now))
    else Success(users)
  }

  /**
   * As written, a configured username other than `admin` is created on the first start and then,
   * because the guard never sees it, inserted again on the next start, which the table refuses.
   */
  lemma SecondStartFailsAsWritten(users: UserTable, config: AdminConfig, encoder: Crypto.PasswordEncoder,
                                  id: UserId, id2: UserId, now: int, later: int)
    requires Wf(users) && id !in users && id2 != id && id2 !in users
    requires config.username != DEFAULT_ADMIN && !HasUsername(users, DEFAULT_ADMIN)
    requires !HasUsername(users, config.username)
    ensures InitAdminAsWritten(users, config, encoder, id, now).Success?
    ensures var first := InitAdminAsWritten(users, config, encoder, id, now).value;
      InitAdminAsWritten(first, config, encoder, id2, later) == Failure(DuplicateUsername)
  {
    var first := InitAdminAsWritten(users, config, encoder, id, now).value;
    assert first[id].username == config.username;
  }

  /** `initAdmin` as evidently intended: the guard asks for the username it is about to create. */
  function InitAdmin(users: UserTable, config: AdminConfig, encoder: Crypto.PasswordEncoder,
                     id: UserId, now: int): (r: UserTable)
    requires Wf(users) && id !in users
    ensures Wf(r)
    ensures HasUsername(users, config.username) ==> r == users
    ensures !HasUsername(users, config.username) ==> r == users[id := AdminRow(config, encoder, id, now)]
    ensures FindByUsername(r, config.username).Some?
  {
    if FindByUsername(users, config.username).None? then
      var admin := AdminRow(config, encoder, id, now);
      assert Wf(users[id := admin]);
      FindByUsernameUnique(users[id := admin], config.username, id);
      users[id := admin]
    else
      users
  }

  /** The corrected seeder is idempotent: a second start changes nothing, whatever the configured name. */
  lemma InitAdminIdempotent(users: UserTable, config: AdminConfig, encoder: Crypto.PasswordEncoder,
                            id: UserId, id2: UserId, now: int, later: int)
    requires Wf(users) && id !in users
    requires id2 !in InitAdmin(users, config, encoder, id, now)
    ensures var first := InitAdmin(users, config, encoder, id, now);
      InitAdmin(first, config, encoder, id2, later) == first
  {
  }

  /** The seeded administrator keeps the identity invariant: the only account without an e-mail is pending setup. */
  lemma SeedKeepsIdentityInvariant(users: UserTable, config: AdminConfig, encoder: Crypto.PasswordEncoder,
                                   id: UserId, now: int)
    requires Wf(users) && id !in users && EmailOnlyMissingForPendingAdmin(users)
    ensures EmailOnlyMissingForPendingAdmin(InitAdmin(users, config, encoder, id, now))
  {
  }
}

=== FILE: decimal.dfy ===
/** Decimal numerals of natural numbers, as `String.valueOf(int)` writes them. */
module Decimal {

  predicate IsDigit(c: char)
  {
    '0' <= c <= '9'
  }

  predicate AllDigits(s: string)
  {
    forall i :: 0 <= i < |s| ==> IsDigit(s[i])
  }

  function DigitChar(d: nat): (c: char)
    requires d < 10
    ensures IsDigit(c)
  {
    (('0' as int) + d) as char
  }

  function DigitValue(c: char): (d: nat)
    requires IsDigit(c)
    ensures d < 10
  {
    c as int - '0' as int
  }

  function Pow10(k: nat): (p: nat)
    ensures p >= 1
  {
    if k == 0 then 1 else 10 * Pow10(k - 1)
  }

  /** The shortest numeral of `n`: no leading zero unless `n` is zero itself. */
  function ToDecimal(n: nat): (s: string)
    ensures 1 <= |s| && AllDigits(s)
    ensures s[0] == '0' ==> n == 0
    decreases n
  {
    if n < 10 then [DigitChar(n)] else ToDecimal(n / 10) + [DigitChar(n % 10)]
  }

  /** The number a numeral denotes (the partner of `ToDecimal`). */
  function ValueOf(s: string): nat
    requires AllDigits(s)
  {
    if |s| == 0 then 0 else 10 * ValueOf(s[..|s| - 1]) + DigitValue(s[|s| - 1])
  }

  lemma {:induction false} ValueOfToDecimal(n: nat)
    ensures ValueOf(ToDecimal(n)) == n
    decreases n
  {
    if n >= 10 {
      var s := ToDecimal(n);
      assert s[..|s| - 1] == ToDecimal(n / 10);
      ValueOfToDecimal(n / 10);
    }
  }

  /** A number with exactly `k` digits is written with exactly `k` characters. */
  lemma {:induction false} ToDecimalLength(n: nat, k: nat)
    requires 1 <= k && Pow10(k - 1) <= n < Pow10(k)
    ensures |ToDecimal(n)| == k
    decreases k
  {
    if k > 1 {
      assert Pow10(k - 1) == 10 * Pow10(k - 2);
      assert Pow10(k) == 10 * Pow10(k - 1);
      assert Pow10(k - 2) <= n / 10 < Pow10(k - 1);
      ToDecimalLength(n / 10, k - 1);
    }
  }
}

=== FILE: jwt.dfy ===
/**
 * `JwtService`: access tokens as signed claim sets. Signing and compact serialisation are abstract: a
 * `Codec` turns a signed claim set into a string and parses it back, and the parser behaves like the
 * library's: a string it cannot read is malformed, a foreign key fails the signature check, and an
 * expiration strictly before the parse time is rejected.
 */
module Jwt {
  import opened Wrappers
  import Users

  /** The payload of a token: caller-supplied claims plus the three registered ones the service sets. */
  datatype Claims = Claims(custom: map<string, string>, subject: string, issuedAt: int, expiration: int)

  /** A claim set together with the key that signed it. */
  datatype SignedJwt = SignedJwt(claims: Claims, key: string)

  /** The compact serialisation and the parser of the JWT library. */
  datatype Codec = Codec(compact: SignedJwt -> string, parse: string -> Option<SignedJwt>)

  /** The parser reads back exactly what the serialiser wrote. */
  ghost predicate ValidCodec(codec: Codec)
  {
    forall s :: codec.parse(codec.compact(s)) == Some(s)
  }

  datatype JwtError = Malformed | InvalidSignature | Expired

  /** The service's configuration: the signing secret, the token lifetime in milliseconds, the library. */
  datatype JwtService = JwtService(secretKey: string, jwtExpiration: int, codec: Codec)

  /** Claim names the builder sets itself after copying the extra claims, so they override those. */
  const REGISTERED_CLAIMS: set<string> := {"sub", "iat", "exp"}

  const BEARER_PREFIX: string := "Bearer "

  /** The claim set `buildToken` signs when called at `now`. */
  function ClaimsFor(extraClaims: map<string, string>, user: Users.User, now: int, expiration: int): Claims
  {
    Claims(extraClaims - REGISTERED_CLAIMS, Users.GetUsername(user), now, now + expiration)
  }

  /** `buildToken`: extra claims, subject = username, issued now, expiring `expiration` ms later. */
  function BuildToken(svc: JwtService, extraClaims: map<string, string>, user: Users.User, expiration: int, now: int): (token: string)
    ensures ValidCodec(svc.codec) ==>
      svc.codec.parse(token) == Some(SignedJwt(ClaimsFor(extraClaims, user, now, expiration), svc.secretKey))
  {
    svc.codec.compact(SignedJwt(ClaimsFor(extraClaims, user, now, expiration), svc.secretKey))
  }

  /** `generateToken(extraClaims, userDetails)`. */
  function GenerateTokenWithClaims(svc: JwtService, extraClaims: map<string, string>, user: Users.User, now: int): string
  {
    BuildToken(svc, extraClaims, user, svc.jwtExpiration, now)
  }

  /** `generateToken(userDetails)`: no extra claims. */
  function GenerateToken(svc: JwtService, user: Users.User, now: int): string
  {
    GenerateTokenWithClaims(svc, map[], user, now)
  }

  /** `extractAllClaims`: parse, check the signature, reject an expired token. */
  function ExtractAllClaims(svc: JwtService, token: string, now: int): (r: Result<Claims, JwtError>)
    ensures r.Success? <==>
      svc.codec.parse(token).Some? && svc.codec.parse(token).value.key == svc.secretKey
      && !(svc.codec.parse(token).value.claims.expiration < now)
    ensures r.Success? ==> r.value == svc.codec.parse(token).value.claims
  {
    match svc.codec.parse(token)
    case None => Failure(Malformed)
    case Some(signed) =>
      if signed.key != svc.secretKey then Failure(InvalidSignature)
      else if signed.claims.expiration < now then Failure(Expired)
      else Success(signed.claims)
  }

  /** `extractEmail`: the subject claim (which holds the username). */
  function ExtractEmail(svc: JwtService, token: string, now: int): Result<string, JwtError>
  {
    match ExtractAllClaims(svc, token, now)
    case Failure(e) => Failure(e)
    case Success(claims) => Success(claims.subject)
  }

  function ExtractExpiration(svc: JwtService, token: string, now: int): Result<int, JwtError>
  {
    match ExtractAllClaims(svc, token, now)
    case Failure(e) => Failure(e)
    case Success(claims) => Success(claims.expiration)
  }

  /** `isTokenExpired`: the expiration lies strictly before now. */
  function IsTokenExpired(svc: JwtService, token: string, now: int): Result<bool, JwtError>
  {
    match ExtractExpiration(svc, token, now)
    case Failure(e) => Failure(e)
    case Success(expiration) => Success(expiration < now)
  }

  /**
   * `isTokenValid`: the subject names the user and the token has not expired. A token the parser
   * rejects makes the call fail rather than answer false.
   */
  function IsTokenValid(svc: JwtService, token: string, user: Users.User, now: int): (r: Result<bool, JwtError>)
    ensures r.Success? <==> ExtractAllClaims(svc, token, now).Success?
    ensures r == Success(true) <==>
      ExtractAllClaims(svc, token, now).Success?
      && ExtractAllClaims(svc, token, now).value.subject == Users.GetUsername(user)
      && !(ExtractAllClaims(svc, token, now).value.expiration < now)
  {
    match ExtractEmail(svc, token, now)
    case Failure(e) => Failure(e)
    case Success(email) =>
      if email != Users.GetUsername(user) then Success(false)
      else
        match IsTokenExpired(svc, token, now)
        case Failure(e) => Failure(e)
        case Success(expired) => Success(!expired)
  }

  predicate StartsWith(s: string, prefix: string)
  {
    |prefix| <= |s| && s[..|prefix|] == prefix
  }

  /** `getEmailFromToken`: strips a `Bearer ` prefix if present; a missing header cannot be parsed. */
  function GetEmailFromToken(svc: JwtService, tokenOrHeader: Option<string>, now: int): (r: Result<string, JwtError>)
    ensures tokenOrHeader.None? ==> r == Failure(Malformed)
    ensures tokenOrHeader.Some? && !StartsWith(tokenOrHeader.value, BEARER_PREFIX) ==>
      r == ExtractEmail(svc, tokenOrHeader.value, now)
  {
    match tokenOrHeader
    case None => Failure(Malformed)
    case Some(h) =>
      if StartsWith(h, BEARER_PREFIX) then ExtractEmail(svc, h[|BEARER_PREFIX|..], now)
      else ExtractEmail(svc, h, now)
  }

  /** A header is the token behind the `Bearer ` prefix. */
  lemma BearerHeaderStripped(svc: JwtService, token: string, now: int)
    ensures GetEmailFromToken(svc, Some(BEARER_PREFIX + token), now) == ExtractEmail(svc, token, now)
  {
    var h := BEARER_PREFIX + token;
    assert h[..|BEARER_PREFIX|] == BEARER_PREFIX;
    assert h[|BEARER_PREFIX|..] == token;
  }

  /**
   * Round trip: a generated token parses back to its claims (subject = username, extra claims kept
   * except the registered names) until its expiration, inclusive, and is rejected as expired after.
   */
  lemma GenerateTokenRoundTrip(svc: JwtService, extraClaims: map<string, string>, user: Users.User, issued: int, now: int)
    requires ValidCodec(svc.codec)
    ensures var token := GenerateTokenWithClaims(svc, extraClaims, user, issued);
      ExtractAllClaims(svc, token, now) ==
        if issued + svc.jwtExpiration < now then Failure(Expired)
        else Success(Claims(extraClaims - REGISTERED_CLAIMS, user.username, issued, issued + svc.jwtExpiration))
  {
  }

  /** `extractEmail(generateToken(u)) == u.getUsername()` while the token is live. */
  lemma ExtractEmailRoundTrip(svc: JwtService, user: Users.User, issued: int, now: int)
    requires ValidCodec(svc.codec)
    requires now <= issued + svc.jwtExpiration
    ensures ExtractEmail(svc, GenerateToken(svc, user, issued), now) == Success(Users.GetUsername(user))
    ensures IsTokenValid(svc, GenerateToken(svc, user, issued), user, now) == Success(true)
  {
    GenerateTokenRoundTrip(svc, map[], user, issued, now);
  }

  /** A token signed under another secret is refused, whoever it names. */
  lemma ForeignKeyRejected(svc: JwtService, other: JwtService, user: Users.User, issued: int, now: int)
    requires ValidCodec(svc.codec) && other.codec == svc.codec && other.secretKey != svc.secretKey
    ensures ExtractAllClaims(svc, GenerateToken(other, user, issued), now) == Failure(InvalidSignature)
  {
  }

  /**
   * The parser already refuses expired tokens, so once the claims have been read `isTokenExpired`
   * can only answer false: the expiry half of `isTokenValid` never decides anything.
   */
  lemma ExpiryCheckAfterParseIsFalse(svc: JwtService, token: string, now: int)
    requires ExtractAllClaims(svc, token, now).Success?
    ensures IsTokenExpired(svc, token, now) == Success(false)
  {
  }
}

=== FILE: lifecycle.dfy ===
/** Properties of whole sessions, across the seeder, `login` and the refresh endpoint. */
module Lifecycle {
  import opened Wrappers
  import opened Users
  import Crypto
  import OtpChallenges
  import RefreshTokens
  import OtpService
  import RefreshTokenService
  import AuthService
  import DataSeeder

  /**
   * The seeded administrator, logging in with the configured name and password, is sent to setup and
   * nothing is stored for it.
   */
  lemma SeededAdminNeedsSetup(services: AuthService.Services, users: UserTable, config: DataSeeder.AdminConfig,
                              id: UserId, created: int, otps: OtpChallenges.OtpTable, tokens: RefreshTokens.TokenTable,
                              now: int, random: int, newValue: string)
    requires Wf(users) && id !in users && RefreshTokens.Wf(tokens)
    requires !HasUsername(users, config.username) && !HasEmail(users, config.username)
    requires 0 <= random < OtpService.OTP_SPAN
    ensures var seeded := DataSeeder.InitAdmin(users, config, services.encoder, id, created);
      AuthService.Login(services, seeded, otps, tokens, config.username, config.password, now, random, newValue)
        == Success(AuthService.LoginStep(AuthService.AdminSetupRequired, otps, tokens, None))
  {
    var seeded := DataSeeder.InitAdmin(users, config, services.encoder, id, created);
    assert seeded[id].email.None?;
    FindByUsernameUnique(seeded, config.username, id);
  }

  /**
   * A session obtained by logging in can be refreshed once: the exchange succeeds while the refresh
   * token is live, and presenting the same value again is refused as unknown.
   */
  lemma LoginRefreshReplay(services: AuthService.Services, users: UserTable, otps: OtpChallenges.OtpTable,
                           tokens: RefreshTokens.TokenTable, identifier: string, password: string,
                           now: int, random: int, newValue: string, later: int, newValue2: string,
                           last: int, newValue3: string)
    requires Wf(users) && RefreshTokens.Wf(tokens) && RefreshTokens.LinkedTo(tokens, users)
    requires 0 <= random < OtpService.OTP_SPAN
    requires var r := AuthService.Login(services, users, otps, tokens, identifier, password, now, random, newValue);
      r.Success? && r.value.response.LoginSuccess?
    requires later <= now + services.refresh.refreshExpiration
    requires newValue2 != newValue
    requires !RefreshTokens.HasToken(
      AuthService.Login(services, users, otps, tokens, identifier, password, now, random, newValue).value.tokens, newValue2)
    ensures var step := AuthService.Login(services, users, otps, tokens, identifier, password, now, random, newValue).value;
      var refreshed := RefreshTokenService.ProcessRefreshToken(services.refresh, users, step.tokens, step.response.refreshToken, later, newValue2);
      && refreshed.result.Success?
      && RefreshTokenService.ProcessRefreshToken(services.refresh, users, refreshed.tokens, step.response.refreshToken, last, newValue3)
           == RefreshTokenService.RefreshStep(Failure(RefreshTokenService.NotInDatabase), refreshed.tokens)
  {
    var step := AuthService.Login(services, users, otps, tokens, identifier, password, now, random, newValue).value;
    var user := FindByEmailOrUsername(users, identifier).value;
    var row := step.tokens[user.id];
    assert RefreshTokens.FindByToken(step.tokens, newValue) == Some(row);
    FindByEmailUnique(users, user.email.value, user.id);
    var refreshed := RefreshTokenService.ProcessRefreshToken(services.refresh, users, step.tokens, newValue, later, newValue2);
    assert refreshed.result.Success?;
    RefreshTokenService.ReplayAfterRotationFails(services.refresh, users, step.tokens, newValue, later, newValue2, last, newValue3);
  }
}

=== FILE: otp_challenges.dfy ===
/** The `PasswordResetOTP` entity (table `otp_request`) and the table of challenges, one per user. */
module OtpChallenges {
  import Users
  import Wrappers

  /** A pending one-time-password challenge: the encoded code, its deadline, and the failed-attempt count. */
  datatype PasswordResetOtp = PasswordResetOtp(
    expiryTime: int,
    otpHash: string,
    user: Users.UserId,
    attempts: int,
    isUsed: bool)

  /** `PasswordResetOTP.builder()` with the two builder defaults: no attempts yet, not used. */
  function Build(user: Users.UserId, otpHash: string, expiryTime: int): (c: PasswordResetOtp)
    ensures c.attempts == 0 && !c.isUsed
    ensures c.user == user && c.otpHash == otpHash && c.expiryTime == expiryTime
  {
    PasswordResetOtp(expiryTime, otpHash, user, 0, false)
  }

  /** The one-to-one link makes the owning user the key of the table. */
  type OtpTable = map<Users.UserId, PasswordResetOtp>

  /** Each challenge is filed under the user it references, and counts are never negative. */
  predicate Wf(otps: OtpTable)
  {
    forall u :: u in otps ==> otps[u].user == u && otps[u].attempts >= 0
  }

  /** The invariant the two services keep: at most three failed attempts stored, never marked used. */
  predicate Bounded(otps: OtpTable)
  {
    forall u :: u in otps ==> 0 <= otps[u].attempts <= 3 && !otps[u].isUsed
  }

  /** Every user other than `u` keeps exactly the challenge (or absence of one) it had. */
  ghost predicate OthersUnchanged(before: OtpTable, after: OtpTable, u: Users.UserId)
  {
    forall v :: v != u ==> (v in before <==> v in after) && (v in before ==> before[v] == after[v])
  }

  /** `findByUser_Email`: the challenge of the user whose e-mail is `email`, if both exist. */
  function FindByUserEmail(users: Users.UserTable, otps: OtpTable, email: string): (r: Wrappers.Option<PasswordResetOtp>)
    requires Users.Wf(users)
    ensures r.Some? <==> Users.FindByEmail(users, email).Some? && Users.FindByEmail(users, email).value.id in otps
    ensures r.Some? ==> r.value == otps[Users.FindByEmail(users, email).value.id]
  {
    match Users.FindByEmail(users, email)
    case None => Wrappers.None
    case Some(u) => if u.id in otps then Wrappers.Some(otps[u.id]) else Wrappers.None
  }
}

=== FILE: otp_service.dfy ===
/**
 * `OtpService`: issues the activation code of a first-time user and checks guesses against it.
 * A challenge is deleted on success, on expiry, or once more than three wrong guesses were made.
 */
module OtpService {
  import Users
  import Decimal
  import Time
  import Crypto
  import opened OtpChallenges

  const OTP_VALIDITY_MINUTES: int := 5
  const OTP_VALIDITY_MILLIS: int := OTP_VALIDITY_MINUTES * Time.MILLIS_PER_MINUTE
  /** Wrong guesses a challenge survives; the next one deletes it. */
  const MAX_ATTEMPTS: int := 3
  const OTP_LOWEST: int := 100_000
  /** The bound passed to `nextInt`: codes are `OTP_LOWEST + [0, OTP_SPAN)`. */
  const OTP_SPAN: int := 900_000

  /** `generateRandomOtp`: `random` is the value drawn by `SecureRandom.nextInt(900000)`. */
  function GenerateRandomOtp(random: int): (code: string)
    requires 0 <= random < OTP_SPAN
    ensures |code| == 6 && Decimal.AllDigits(code) && code[0] != '0'
    ensures Decimal.ValueOf(code) == OTP_LOWEST + random
  {
    Decimal.ValueOfToDecimal(OTP_LOWEST + random);
    assert Decimal.Pow10(5) == OTP_LOWEST && Decimal.Pow10(6) == 1_000_000;
    Decimal.ToDecimalLength(OTP_LOWEST + random, 6);
    Decimal.ToDecimal(OTP_LOWEST + random)
  }

  /** The new table and the raw code handed to the delivery channel. */
  datatype OtpIssue = OtpIssue(otps: OtpTable, sentCode: string)

  /**
   * `generateAndSendOtp`: drop the user's old challenge, store the encoding of a fresh six-digit code
   * with a five-minute deadline and no attempts, and deliver the raw code.
   */
  function GenerateAndSendOtp(otps: OtpTable, user: Users.User, now: Time.Instant, random: int,
                              encoder: Crypto.PasswordEncoder): (r: OtpIssue)
    requires 0 <= random < OTP_SPAN
    ensures user.id in r.otps
    ensures r.otps[user.id].attempts == 0 && !r.otps[user.id].isUsed && r.otps[user.id].user == user.id
    ensures r.otps[user.id].expiryTime == now + OTP_VALIDITY_MILLIS
    ensures r.otps[user.id].otpHash == Crypto.Encode(encoder, r.sentCode)
    ensures |r.sentCode| == 6 && Decimal.AllDigits(r.sentCode) && Decimal.ValueOf(r.sentCode) == OTP_LOWEST + random
    ensures OthersUnchanged(otps, r.otps, user.id)
    ensures Wf(otps) ==> Wf(r.otps)
    ensures Bounded(otps) ==> Bounded(r.otps)
  {
    var cleared := otps - {user.id};
    var rawOtp := GenerateRandomOtp(random);
    var entity := Build(user.id, Crypto.Encode(encoder, rawOtp), Time.PlusMinutes(now, OTP_VALIDITY_MINUTES));
    OtpIssue(cleared[user.id := entity], rawOtp)
  }

  /** `incrementAttempts`: count one more wrong guess; past the limit the challenge is deleted. */
  function IncrementAttempts(otps: OtpTable, u: Users.UserId): (r: OtpTable)
    requires u in otps
    ensures u in r <==> otps[u].attempts < MAX_ATTEMPTS
    ensures u in r ==> r[u] == otps[u].(attempts := otps[u].attempts + 1)
    ensures OthersUnchanged(otps, r, u)
  {
    var challenge := otps[u].(attempts := otps[u].attempts + 1);
    if challenge.attempts > MAX_ATTEMPTS then otps - {u} else otps[u := challenge]
  }

  /** Whether the guess was accepted, and the table afterwards. */
  datatype OtpCheck = OtpCheck(valid: bool, otps: OtpTable)

  /**
   * `validateOtp`: absent -> false; expired -> delete, false; match -> delete, true;
   * otherwise count the wrong guess.
   */
  function ValidateOtp(otps: OtpTable, user: Users.User, inputOtp: string, now: Time.Instant,
                       encoder: Crypto.PasswordEncoder): (r: OtpCheck)
    ensures r.valid <==>
      user.id in otps && !Time.IsBefore(otps[user.id].expiryTime, now)
      && Crypto.Matches(encoder, inputOtp, otps[user.id].otpHash)
    ensures user.id !in otps ==> r.otps == otps
    ensures user.id in otps && Time.IsBefore(otps[user.id].expiryTime, now) ==> r.otps == otps - {user.id}
    ensures r.valid ==> r.otps == otps - {user.id}
    ensures user.id in r.otps ==>
      user.id in otps && r.otps[user.id] == otps[user.id].(attempts := otps[user.id].attempts + 1)
      && r.otps[user.id].attempts <= MAX_ATTEMPTS
    ensures OthersUnchanged(otps, r.otps, user.id)
    ensures Wf(otps) ==> Wf(r.otps)
    ensures Bounded(otps) ==> Bounded(r.otps)
  {
    if user.id !in otps then
      OtpCheck(false, otps)
    else
      var otpEntity := otps[user.id];
      if Time.IsBefore(otpEntity.expiryTime, now) then
        OtpCheck(false, otps - {user.id})
      else if Crypto.Matches(encoder, inputOtp, otpEntity.otpHash) then
        OtpCheck(true, otps - {user.id})
      else
        OtpCheck(false, IncrementAttempts(otps, user.id))
  }

  /** The answers to a run of guesses by one user, and the table after the last one. */
  datatype OtpRun = OtpRun(results: seq<bool>, otps: OtpTable)

  /** Successive `validateOtp` calls for one user at one instant. */
  function ValidateEach(otps: OtpTable, user: Users.User, guesses: seq<string>, now: Time.Instant,
                        encoder: Crypto.PasswordEncoder): (r: OtpRun)
    ensures |r.results| == |guesses|
    decreases |guesses|
  {
    if |guesses| == 0 then
      OtpRun([], otps)
    else
      var first := ValidateOtp(otps, user, guesses[0], now, encoder);
      var rest := ValidateEach(first.otps, user, guesses[1..], now, encoder);
      OtpRun([first.valid] + rest.results, rest.otps)
  }

  /** Without a challenge every guess is refused and nothing changes. */
  lemma {:induction false} NoChallengeRefusesAll(otps: OtpTable, user: Users.User, guesses: seq<string>,
                                                 now: Time.Instant, encoder: Crypto.PasswordEncoder)
    requires user.id !in otps
    ensures forall i :: 0 <= i < |guesses| ==> !ValidateEach(otps, user, guesses, now, encoder).results[i]
    ensures ValidateEach(otps, user, guesses, now, encoder).otps == otps
    decreases |guesses|
  {
    if |guesses| > 0 {
      NoChallengeRefusesAll(otps, user, guesses[1..], now, encoder);
    }
  }

  /**
   * Wrong guesses against a live challenge with `a` attempts are all refused; the challenge survives
   * with `a + k` attempts while that is at most three, and is gone once it would exceed three.
   */
  lemma {:induction false} WrongGuessesExhaust(otps: OtpTable, user: Users.User, guesses: seq<string>,
                                               now: Time.Instant, encoder: Crypto.PasswordEncoder)
    requires user.id in otps && 0 <= otps[user.id].attempts <= MAX_ATTEMPTS
    requires !Time.IsBefore(otps[user.id].expiryTime, now)
    requires forall i :: 0 <= i < |guesses| ==> !Crypto.Matches(encoder, guesses[i], otps[user.id].otpHash)
    ensures var r := ValidateEach(otps, user, guesses, now, encoder);
      && (forall i :: 0 <= i < |guesses| ==> !r.results[i])
      && (otps[user.id].attempts + |guesses| <= MAX_ATTEMPTS ==>
            user.id in r.otps && r.otps[user.id] == otps[user.id].(attempts := otps[user.id].attempts + |guesses|))
      && (otps[user.id].attempts + |guesses| > MAX_ATTEMPTS ==> user.id !in r.otps)
      && OthersUnchanged(otps, r.otps, user.id)
    decreases |guesses|
  {
    if |guesses| > 0 {
      var first := ValidateOtp(otps, user, guesses[0], now, encoder);
      var rest := ValidateEach(first.otps, user, guesses[1..], now, encoder);
      assert ValidateEach(otps, user, guesses, now, encoder) == OtpRun([first.valid] + rest.results, rest.otps);
      if user.id in first.otps {
        WrongGuessesExhaust(first.otps, user, guesses[1..], now, encoder);
      } else {
        NoChallengeRefusesAll(first.otps, user, guesses[1..], now, encoder);
      }
    }
  }

  /** Issuing then answering with the delivered code succeeds until the deadline, inclusive, and consumes it. */
  lemma IssueThenValidate(otps: OtpTable, user: Users.User, issuedAt: Time.Instant, random: int,
                          encoder: Crypto.PasswordEncoder, now: Time.Instant)
    requires 0 <= random < OTP_SPAN
    ensures var issue := GenerateAndSendOtp(otps, user, issuedAt, random, encoder);
      var check := ValidateOtp(issue.otps, user, issue.sentCode, now, encoder);
      && (check.valid <==> now <= issuedAt + OTP_VALIDITY_MILLIS)
      && user.id !in check.otps
  {
  }

  /**
   * Four wrong guesses within the five minutes after issue are each refused and leave no challenge;
   * after only three the challenge is still there with three attempts and the right code still works.
   */
  lemma FourWrongGuessesLockOut(otps: OtpTable, user: Users.User, issuedAt: Time.Instant, random: int,
                                encoder: Crypto.PasswordEncoder, now: Time.Instant, guesses: seq<string>)
    requires 0 <= random < OTP_SPAN
    requires issuedAt <= now <= issuedAt + OTP_VALIDITY_MILLIS
    requires |guesses| == 4
    requires forall i :: 0 <= i < 4 ==> Crypto.Encode(encoder, guesses[i]) != Crypto.Encode(encoder, GenerateRandomOtp(random))
    ensures var issue := GenerateAndSendOtp(otps, user, issuedAt, random, encoder);
      var run := ValidateEach(issue.otps, user, guesses, now, encoder);
      run.results == [false, false, false, false] && user.id !in run.otps
    ensures var issue := GenerateAndSendOtp(otps, user, issuedAt, random, encoder);
      var run := ValidateEach(issue.otps, user, guesses[..3], now, encoder);
      && user.id in run.otps && run.otps[user.id].attempts == 3
      && ValidateOtp(run.otps, user, issue.sentCode, now, encoder).valid
  {
    var issue := GenerateAndSendOtp(otps, user, issuedAt, random, encoder);
    WrongGuessesExhaust(issue.otps, user, guesses, now, encoder);
    WrongGuessesExhaust(issue.otps, user, guesses[..3], now, encoder);
    var run := ValidateEach(issue.otps, user, guesses, now, encoder);
    assert run.results == [run.results[0], run.results[1], run.results[2], run.results[3]];
  }
}

=== FILE: password_reset_service.dfy ===
/**
 * `PasswordResetService`: a reset code is checked with its own lockout rule (three stored failures end
 * the challenge before the code is compared), and a successful check yields a token marked RESET that
 * authorises one password change.
 */
module PasswordResetService {
  import opened Wrappers
  import opened Users
  import Time
  import Crypto
  import Jwt
  import opened OtpChallenges
  import OtpService
  import Decimal

  /** Checks against this many stored failures refuse the challenge outright. */
  const MAX_ATTEMPTS: int := 3
  const TYPE_CLAIM: string := "type"
  const RESET: string := "RESET"

  datatype ResetError =
    | InvalidRequest
    | OtpExpired
    | TooManyAttempts
    | InvalidOtp
    | TokenRejected(cause: Jwt.JwtError)
    | UserNotFound
    | InvalidToken

  /** The answer of `verifyOtp` and the challenge table after it (each step is saved on its own). */
  datatype ResetStep = ResetStep(result: Result<string, ResetError>, otps: OtpTable)

  /** The claims a reset token carries besides the registered ones. */
  function ResetClaims(): map<string, string>
  {
    map[TYPE_CLAIM := RESET]
  }

  /** `incrementAttempts`: one more failure, always saved (no deletion here). */
  function IncrementAttempts(otps: OtpTable, u: UserId): (r: OtpTable)
    requires u in otps
    ensures u in r && r[u] == otps[u].(attempts := otps[u].attempts + 1)
    ensures OthersUnchanged(otps, r, u)
  {
    otps[u := otps[u].(attempts := otps[u].attempts + 1)]
  }

  /**
   * `verifyOtp`: no challenge -> InvalidRequest; expired -> delete, OtpExpired; three or more stored
   * failures -> delete, TooManyAttempts (before comparing); wrong code -> count it, InvalidOtp;
   * right code -> delete and return a RESET token for the user.
   */
  function VerifyOtp(jwt: Jwt.JwtService, encoder: Crypto.PasswordEncoder, users: UserTable, otps: OtpTable,
                     email: string, rawOtp: string, now: Time.Instant): (r: ResetStep)
    requires Users.Wf(users)
    ensures FindByUserEmail(users, otps, email).None? ==> r == ResetStep(Failure(InvalidRequest), otps)
    ensures r.result.Success? <==>
      && FindByUserEmail(users, otps, email).Some?
      && var c := FindByUserEmail(users, otps, email).value;
         !Time.IsBefore(c.expiryTime, now) && c.attempts < MAX_ATTEMPTS && Crypto.Matches(encoder, rawOtp, c.otpHash)
    ensures r.result.Success? ==>
      var user := FindByEmail(users, email).value;
      && r.result.value == Jwt.GenerateTokenWithClaims(jwt, ResetClaims(), user, now)
      && r.otps == otps - {user.id}
    ensures FindByUserEmail(users, otps, email).Some? ==>
      var c := FindByUserEmail(users, otps, email).value;
      var id := FindByEmail(users, email).value.id;
      && (Time.IsBefore(c.expiryTime, now) ==> r == ResetStep(Failure(OtpExpired), otps - {id}))
      && (!Time.IsBefore(c.expiryTime, now) && c.attempts >= MAX_ATTEMPTS ==>
            r == ResetStep(Failure(TooManyAttempts), otps - {id}))
      && (!Time.IsBefore(c.expiryTime, now) && c.attempts < MAX_ATTEMPTS && !Crypto.Matches(encoder, rawOtp, c.otpHash) ==>
            r == ResetStep(Failure(InvalidOtp), IncrementAttempts(otps, id)))
    ensures r.result.Failure? && r.result.error == InvalidOtp ==>
      var user := FindByEmail(users, email).value;
      && user.id in r.otps && r.otps == IncrementAttempts(otps, user.id)
    ensures r.result.Failure? && (r.result.error == OtpExpired || r.result.error == TooManyAttempts) ==>
      r.otps == otps - {FindByEmail(users, email).value.id}
    ensures Bounded(otps) ==> Bounded(r.otps)
    ensures OtpChallenges.Wf(otps) ==> OtpChallenges.Wf(r.otps)
  {
    match FindByEmail(users, email)
    case None => ResetStep(Failure(InvalidRequest), otps)
    case Some(user) =>
      if user.id !in otps then ResetStep(Failure(InvalidRequest), otps)
      else
        var otpEntity := otps[user.id];
        if Time.IsBefore(otpEntity.expiryTime, now) then ResetStep(Failure(OtpExpired), otps - {user.id})
        else if otpEntity.attempts >= MAX_ATTEMPTS then ResetStep(Failure(TooManyAttempts), otps - {user.id})
        else if !Crypto.Matches(encoder, rawOtp, otpEntity.otpHash) then ResetStep(Failure(InvalidOtp), IncrementAttempts(otps, user.id))
        else
          var resetToken := Jwt.GenerateTokenWithClaims(jwt, ResetClaims(), user, now);
          ResetStep(Success(resetToken), otps - {user.id})
  }

  /** `generateOtp`: `random` is the value drawn by `SecureRandom.nextInt(900000)`. */
  function GenerateOtp(random: int): (code: string)
    requires 0 <= random < OtpService.OTP_SPAN
    ensures |code| == 6 && Decimal.AllDigits(code) && code[0] != '0'
    ensures Decimal.ValueOf(code) == OtpService.OTP_LOWEST + random
    ensures OtpService.OTP_LOWEST <= Decimal.ValueOf(code) < OtpService.OTP_LOWEST + OtpService.OTP_SPAN
  {
    OtpService.GenerateRandomOtp(random)
  }

  /**
   * `resetPassword` as written: the token's subject (a username) is looked up as an e-mail, then
   * `isTokenValid` is checked; the `type` claim is never read.
   */
  function ResetPasswordAsWritten(jwt: Jwt.JwtService, encoder: Crypto.PasswordEncoder, users: UserTable,
                                  resetToken: string, newPassword: string, now: Time.Instant): (r: Result<UserTable, ResetError>)
    requires Users.Wf(users)
    ensures r.Success? <==>
      && Jwt.ExtractEmail(jwt, resetToken, now).Success?
      && var subject := Jwt.ExtractEmail(jwt, resetToken, now).value;
         HasEmail(users, subject)
         && Jwt.IsTokenValid(jwt, resetToken, FindByEmail(users, subject).value, now) == Success(true)
    ensures r.Success? ==>
      var user := FindByEmail(users, Jwt.ExtractEmail(jwt, resetToken, now).value).value;
      && r.value == users[user.id := user.(password := Crypto.Encode(encoder, newPassword))]
      && r.value.Keys == users.Keys
      && (forall id :: id in users && id != user.id ==> r.value[id] == users[id])
  {
    match Jwt.ExtractEmail(jwt, resetToken, now)
    case Failure(e) => Failure(TokenRejected(e))
    case Success(email) =>
      match FindByEmail(users, email)
      case None => Failure(UserNotFound)
      case Some(user) =>
        match Jwt.IsTokenValid(jwt, resetToken, user, now)
        case Failure(e) => Failure(TokenRejected(e))
        case Success(valid) =>
          if !valid then Failure(InvalidToken)
          else Success(users[user.id := user.(password := Crypto.Encode(encoder, newPassword))])
  }

  /**
   * As written, the token `verifyOtp` issues never resolves: its subject is the username, and unless
   * some account's e-mail equals that username the lookup by e-mail finds nobody.
   */
  lemma VerifiedTokenRejectedAsWritten(jwt: Jwt.JwtService, encoder: Crypto.PasswordEncoder, users: UserTable,
                                       otps: OtpTable, email: string, rawOtp: string, now: Time.Instant,
                                       newPassword: string, at: Time.Instant)
    requires Users.Wf(users) && Jwt.ValidCodec(jwt.codec)
    requires VerifyOtp(jwt, encoder, users, otps, email, rawOtp, now).result.Success?
    requires !HasEmail(users, FindByEmail(users, email).value.username)
    ensures var token := VerifyOtp(jwt, encoder, users, otps, email, rawOtp, now).result.value;
      ResetPasswordAsWritten(jwt, encoder, users, token, newPassword, at).Failure?
  {
  }

  /**
   * As written, an ordinary access token (no `type` claim) changes the password of an account whose
   * username equals its e-mail.
   */
  lemma AccessTokenResetsPasswordAsWritten(jwt: Jwt.JwtService, encoder: Crypto.PasswordEncoder, users: UserTable,
                                           id: UserId, issued: Time.Instant, newPassword: string, at: Time.Instant)
    requires Users.Wf(users) && Jwt.ValidCodec(jwt.codec)
    requires id in users && users[id].email == Some(users[id].username)
    requires at <= issued + jwt.jwtExpiration
    ensures var token := Jwt.GenerateToken(jwt, users[id], issued);
      && TYPE_CLAIM !in Jwt.ExtractAllClaims(jwt, token, at).value.custom
      && ResetPasswordAsWritten(jwt, encoder, users, token, newPassword, at).Success?
  {
    FindByEmailUnique(users, users[id].username, id);
  }

  /**
   * `resetPassword` as evidently intended: the subject is resolved as the username it is, the token
   * must be valid for that user, and it must carry `type = RESET`. Only that user's password changes.
   */
  function ResetPassword(jwt: Jwt.JwtService, encoder: Crypto.PasswordEncoder, users: UserTable,
                         resetToken: string, newPassword: string, now: Time.Instant): (r: Result<UserTable, ResetError>)
    requires Users.Wf(users)
    ensures r.Success? <==>
      && Jwt.ExtractAllClaims(jwt, resetToken, now).Success?
      && var claims := Jwt.ExtractAllClaims(jwt, resetToken, now).value;
         HasUsername(users, claims.subject) && TYPE_CLAIM in claims.custom && claims.custom[TYPE_CLAIM] == RESET
    ensures r.Success? ==>
      var user := FindByUsername(users, Jwt.ExtractAllClaims(jwt, resetToken, now).value.subject).value;
      && r.value.Keys == users.Keys
      && r.value[user.id] == user.(password := Crypto.Encode(encoder, newPassword))
      && (forall id :: id in users && id != user.id ==> r.value[id] == users[id])
      && Users.Wf(r.value)
  {
    match Jwt.ExtractAllClaims(jwt, resetToken, now)
    case Failure(e) => Failure(TokenRejected(e))
    case Success(claims) =>
      match FindByUsername(users, claims.subject)
      case None => Failure(UserNotFound)
      case Some(user) =>
        match Jwt.IsTokenValid(jwt, resetToken, user, now)
        case Failure(e) => Failure(TokenRejected(e))
        case Success(valid) =>
          if !valid || TYPE_CLAIM !in claims.custom || claims.custom[TYPE_CLAIM] != RESET then Failure(InvalidToken)
          else Success(users[user.id := user.(password := Crypto.Encode(encoder, newPassword))])
  }

  /** The token a successful `verifyOtp` returns lets that same user set a new password while it is live. */
  lemma ResetAfterVerifySucceeds(jwt: Jwt.JwtService, encoder: Crypto.PasswordEncoder, users: UserTable,
                                 otps: OtpTable, email: string, rawOtp: string, now: Time.Instant,
                                 newPassword: string, at: Time.Instant)
    requires Users.Wf(users) && Jwt.ValidCodec(jwt.codec)
    requires VerifyOtp(jwt, encoder, users, otps, email, rawOtp, now).result.Success?
    requires at <= now + jwt.jwtExpiration
    ensures var token := VerifyOtp(jwt, encoder, users, otps, email, rawOtp, now).result.value;
      var user := FindByEmail(users, email).value;
      var r := ResetPassword(jwt, encoder, users, token, newPassword, at);
      r.Success? && r.value[user.id].password == Crypto.Encode(encoder, newPassword)
  {
    var user := FindByEmail(users, email).value;
    Jwt.GenerateTokenRoundTrip(jwt, ResetClaims(), user, now, at);
    FindByUsernameUnique(users, user.username, user.id);
  }

  /** The corrected reset refuses an ordinary access token: it carries no `type = RESET` claim. */
  lemma AccessTokenRejected(jwt: Jwt.JwtService, encoder: Crypto.PasswordEncoder, users: UserTable,
                            user: User, issued: Time.Instant, newPassword: string, at: Time.Instant)
    requires Users.Wf(users) && Jwt.ValidCodec(jwt.codec)
    ensures ResetPassword(jwt, encoder, users, Jwt.GenerateToken(jwt, user, issued), newPassword, at).Failure?
  {
  }

  /**
   * Three wrong codes against a fresh challenge are each refused and saved; the fourth call is refused
   * as too many attempts even with the right code, and deletes the challenge.
   */
  lemma ThreeWrongCodesLockOut(jwt: Jwt.JwtService, encoder: Crypto.PasswordEncoder, users: UserTable, otps: OtpTable,
                               email: string, wrong: string, right: string, now: Time.Instant)
    requires Users.Wf(users) && FindByUserEmail(users, otps, email).Some?
    requires var c := FindByUserEmail(users, otps, email).value;
      c.attempts == 0 && !Time.IsBefore(c.expiryTime, now)
      && !Crypto.Matches(encoder, wrong, c.otpHash) && Crypto.Matches(encoder, right, c.otpHash)
    ensures var s1 := VerifyOtp(jwt, encoder, users, otps, email, wrong, now);
      var s2 := VerifyOtp(jwt, encoder, users, s1.otps, email, wrong, now);
      var s3 := VerifyOtp(jwt, encoder, users, s2.otps, email, wrong, now);
      var s4 := VerifyOtp(jwt, encoder, users, s3.otps, email, right, now);
      && s1.result == Failure(InvalidOtp) && s2.result == Failure(InvalidOtp) && s3.result == Failure(InvalidOtp)
      && s4.result == Failure(TooManyAttempts)
      && FindByUserEmail(users, s4.otps, email).None?
  {
  }

  /**
   * The two lockout rules differ: after three wrong guesses on one challenge, the activation check
   * still accepts the right code while the reset check refuses it.
   */
  lemma LockoutRulesDiffer(jwt: Jwt.JwtService, encoder: Crypto.PasswordEncoder, users: UserTable, otps: OtpTable,
                           email: string, right: string, now: Time.Instant)
    requires Users.Wf(users) && FindByUserEmail(users, otps, email).Some?
    requires var c := FindByUserEmail(users, otps, email).value;
      c.attempts == 3 && !Time.IsBefore(c.expiryTime, now) && Crypto.Matches(encoder, right, c.otpHash)
    ensures OtpService.ValidateOtp(otps, FindByEmail(users, email).value, right, now, encoder).valid
    ensures VerifyOtp(jwt, encoder, users, otps, email, right, now).result == Failure(TooManyAttempts)
  {
  }
}

=== FILE: refresh_token_service.dfy ===
/**
 * `RefreshTokenService`: one refresh session per user, replaced on every issue, checked against its
 * deadline, revoked on logout, and rotated on refresh so that a used value never matches again.
 * `newValue` is the newly drawn UUID string; cookies are not modelled.
 */
module RefreshTokenService {
  import opened Wrappers
  import Users
  import Time
  import Jwt
  import opened RefreshTokens

  datatype RefreshError = UserNotFound | DuplicateToken | TokenExpired | NotInDatabase

  /** The service's configuration: the refresh lifetime in milliseconds and the access-token service. */
  datatype Settings = Settings(refreshExpiration: int, jwt: Jwt.JwtService)

  /** The saved row and the table after saving it. */
  datatype Issued = Issued(row: RefreshToken, tokens: TokenTable)

  /**
   * `createRefreshToken`: find the user by e-mail, reuse their row or start one, give it the new
   * value and a new deadline, and save it. Saving fails if another user's row already holds the value
   * (the unique column). A missing e-mail finds nobody.
   */
  function CreateRefreshToken(settings: Settings, users: Users.UserTable, tokens: TokenTable, email: Option<string>,
                              now: Time.Instant, newValue: string): (r: Result<Issued, RefreshError>)
    requires Users.Wf(users) && Wf(tokens)
    ensures r.Failure? <==>
      email.None? || !Users.HasEmail(users, email.value)
      || HeldByOther(tokens, Users.FindByEmail(users, email.value).value.id, newValue)
    ensures r.Failure? ==> r.error == UserNotFound || r.error == DuplicateToken
    ensures r.Success? ==>
      var u := Users.FindByEmail(users, email.value).value.id;
      && r.value.row == RefreshToken(newValue, now + settings.refreshExpiration, u)
      && u in r.value.tokens && r.value.tokens[u] == r.value.row
      && OthersUnchanged(tokens, r.value.tokens, u)
      && Wf(r.value.tokens)
      && (LinkedTo(tokens, users) ==> LinkedTo(r.value.tokens, users))
      && FindByToken(r.value.tokens, newValue) == Some(r.value.row)
      && (u in tokens && tokens[u].token != newValue ==> !HasToken(r.value.tokens, tokens[u].token))
  {
    match email
    case None => Failure(UserNotFound)
    case Some(e) =>
      match Users.FindByEmail(users, e)
      case None => Failure(UserNotFound)
      case Some(user) =>
        var existing := if user.id in tokens then tokens[user.id] else RefreshToken("", 0, user.id);
        var refreshToken := existing.(token := newValue, expiryDate := Time.PlusMillis(now, settings.refreshExpiration));
        if HeldByOther(tokens, user.id, newValue) then
          Failure(DuplicateToken)
        else
          Success(Issued(refreshToken, tokens[user.id := refreshToken]))
  }

  /** The answer of `verifyExpiration` and the table after it. */
  datatype Verified = Verified(result: Result<RefreshToken, RefreshError>, tokens: TokenTable)

  /** `verifyExpiration`: a deadline strictly before now deletes the row and fails; otherwise nothing happens. */
  function VerifyExpiration(tokens: TokenTable, token: RefreshToken, now: Time.Instant): (r: Verified)
    ensures r.result.Failure? <==> token.expiryDate < now
    ensures r.result.Failure? ==> r.result.error == TokenExpired && r.tokens == tokens - {token.user}
    ensures r.result.Success? ==> r.result.value == token && r.tokens == tokens
  {
    if Time.IsBefore(token.expiryDate, now) then
      Verified(Failure(TokenExpired), tokens - {token.user})
    else
      Verified(Success(token), tokens)
  }

  /** A session is still good at the very instant of its deadline. */
  lemma ValidAtDeadline(tokens: TokenTable, token: RefreshToken)
    ensures VerifyExpiration(tokens, token, token.expiryDate) == Verified(Success(token), tokens)
    ensures VerifyExpiration(tokens, token, token.expiryDate + 1).result == Failure(TokenExpired)
  {
  }

  /** `revokeToken`, store part: delete the row holding the value, if any. */
  function RevokeToken(tokens: TokenTable, value: string): (r: TokenTable)
    requires Wf(tokens)
    ensures Wf(r) && !HasToken(r, value)
    ensures !HasToken(tokens, value) ==> r == tokens
    ensures HasToken(tokens, value) ==> r == tokens - {FindByToken(tokens, value).value.user}
  {
    match FindByToken(tokens, value)
    case None => tokens
    case Some(row) => tokens - {row.user}
  }

  /** Logging out twice is logging out once. */
  lemma RevokeIdempotent(tokens: TokenTable, value: string)
    requires Wf(tokens)
    ensures RevokeToken(RevokeToken(tokens, value), value) == RevokeToken(tokens, value)
  {
  }

  /** What a successful refresh hands back: a new access token and the new refresh value (the cookie). */
  datatype Rotation = Rotation(accessToken: string, refreshToken: string)

  /** The answer of a refresh request and the table afterwards. */
  datatype RefreshStep = RefreshStep(result: Result<Rotation, RefreshError>, tokens: TokenTable)

  /**
   * Steps 2-4 of `processRefreshToken` for a found, unexpired row: delete it, sign an access token for
   * its owner, and issue a new session. Any failure rolls the whole transaction back.
   */
  function Rotate(settings: Settings, users: Users.UserTable, tokens: TokenTable, token: RefreshToken,
                  now: Time.Instant, newValue: string): (r: RefreshStep)
    requires Users.Wf(users) && Wf(tokens) && LinkedTo(tokens, users)
    requires token.user in tokens && tokens[token.user] == token
    ensures Wf(r.tokens) && LinkedTo(r.tokens, users)
    ensures r.result.Success? <==> users[token.user].email.Some? && !HeldByOther(tokens, token.user, newValue)
    ensures r.result.Failure? ==> r.tokens == tokens
    ensures r.result.Success? ==>
      && token.user in r.tokens && r.tokens[token.user] == RefreshToken(newValue, now + settings.refreshExpiration, token.user)
      && r.result.value.refreshToken == newValue
      && r.result.value.accessToken == Jwt.GenerateToken(settings.jwt, users[token.user], now)
      && OthersUnchanged(tokens, r.tokens, token.user)
      && (newValue != token.token ==> !HasToken(r.tokens, token.token))
  {
    var user := users[token.user];
    assert user.email.Some? ==> Users.FindByEmail(users, user.email.value) == Some(user) by {
      if user.email.Some? { Users.FindByEmailUnique(users, user.email.value, token.user); }
    }
    var deleted := tokens - {token.user};
    var newAccess := Jwt.GenerateToken(settings.jwt, user, now);
    match CreateRefreshToken(settings, users, deleted, user.email, now, newValue)
    case Failure(e) => RefreshStep(Failure(e), tokens)
    case Success(issued) =>
      assert issued.row.user == token.user;
      assert !HeldByOther(tokens, token.user, newValue) by {
        forall v | v in tokens && v != token.user
          ensures tokens[v].token != newValue
        {
          assert v in deleted && deleted[v] == tokens[v];
        }
      }
      RefreshStep(Success(Rotation(newAccess, issued.row.token)), issued.tokens)
  }

  /**
   * `processRefreshToken` with the transactional semantics it is declared with: the exception thrown by
   * `verifyExpiration` rolls back its own delete, so an expired row stays in the table.
   */
  function ProcessRefreshTokenAsWritten(settings: Settings, users: Users.UserTable, tokens: TokenTable,
                                        requestToken: string, now: Time.Instant, newValue: string): (r: RefreshStep)
    requires Users.Wf(users) && Wf(tokens) && LinkedTo(tokens, users)
    ensures Wf(r.tokens) && LinkedTo(r.tokens, users)
    ensures r.result.Failure? ==> r.tokens == tokens
    ensures !HasToken(tokens, requestToken) ==> r == RefreshStep(Failure(NotInDatabase), tokens)
    ensures HasToken(tokens, requestToken) && FindByToken(tokens, requestToken).value.expiryDate < now ==>
      r == RefreshStep(Failure(TokenExpired), tokens)
    ensures r.result.Success? ==>
      var owner := FindByToken(tokens, requestToken).value.user;
      && HasToken(tokens, requestToken) && !(FindByToken(tokens, requestToken).value.expiryDate < now)
      && owner in r.tokens && r.tokens[owner] == RefreshToken(newValue, now + settings.refreshExpiration, owner)
      && r.result.value.refreshToken == newValue
      && r.result.value.accessToken == Jwt.GenerateToken(settings.jwt, users[owner], now)
      && OthersUnchanged(tokens, r.tokens, owner)
      && (newValue != requestToken ==> !HasToken(r.tokens, requestToken))
    ensures r.result.Success? ==> r == ProcessRefreshToken(settings, users, tokens, requestToken, now, newValue)
    ensures HasToken(tokens, requestToken) && !(FindByToken(tokens, requestToken).value.expiryDate < now) ==>
      var owner := FindByToken(tokens, requestToken).value.user;
      (r.result.Success? <==> users[owner].email.Some? && !HeldByOther(tokens, owner, newValue))
  {
    match FindByToken(tokens, requestToken)
    case None => RefreshStep(Failure(NotInDatabase), tokens)
    case Some(token) =>
      var verified := VerifyExpiration(tokens, token, now);
      if verified.result.Failure? then RefreshStep(Failure(verified.result.error), tokens)
      else Rotate(settings, users, tokens, token, now, newValue)
  }

  /** As written, an expired value is refused but keeps its row, and is refused as expired again later. */
  lemma ExpiredRowSurvivesAsWritten(settings: Settings, users: Users.UserTable, tokens: TokenTable,
                                    requestToken: string, now: Time.Instant, newValue: string)
    requires Users.Wf(users) && Wf(tokens) && LinkedTo(tokens, users)
    requires HasToken(tokens, requestToken) && FindByToken(tokens, requestToken).value.expiryDate < now
    ensures var r := ProcessRefreshTokenAsWritten(settings, users, tokens, requestToken, now, newValue);
      r.result == Failure(TokenExpired) && r.tokens == tokens && HasToken(r.tokens, requestToken)
  {
  }

  /**
   * `processRefreshToken` as evidently intended: find, verify (an expired row is deleted for good),
   * then rotate. Unknown values change nothing.
   */
  function ProcessRefreshToken(settings: Settings, users: Users.UserTable, tokens: TokenTable,
                               requestToken: string, now: Time.Instant, newValue: string): (r: RefreshStep)
    requires Users.Wf(users) && Wf(tokens) && LinkedTo(tokens, users)
    ensures Wf(r.tokens) && LinkedTo(r.tokens, users)
    ensures !HasToken(tokens, requestToken) ==> r == RefreshStep(Failure(NotInDatabase), tokens)
    ensures HasToken(tokens, requestToken) && FindByToken(tokens, requestToken).value.expiryDate < now ==>
      && r.result == Failure(TokenExpired)
      && r.tokens == tokens - {FindByToken(tokens, requestToken).value.user}
      && !HasToken(r.tokens, requestToken)
    ensures r.result.Success? ==>
      var owner := FindByToken(tokens, requestToken).value.user;
      && HasToken(tokens, requestToken) && !(FindByToken(tokens, requestToken).value.expiryDate < now)
      && owner in r.tokens && r.tokens[owner] == RefreshToken(newValue, now + settings.refreshExpiration, owner)
      && r.result.value.refreshToken == newValue
      && r.result.value.accessToken == Jwt.GenerateToken(settings.jwt, users[owner], now)
      && OthersUnchanged(tokens, r.tokens, owner)
      && (newValue != requestToken ==> !HasToken(r.tokens, requestToken))
    ensures r.result.Failure? && r.result.error != TokenExpired ==> r.tokens == tokens
    ensures HasToken(tokens, requestToken) && !(FindByToken(tokens, requestToken).value.expiryDate < now) ==>
      var owner := FindByToken(tokens, requestToken).value.user;
      (r.result.Success? <==> users[owner].email.Some? && !HeldByOther(tokens, owner, newValue))
  {
    match FindByToken(tokens, requestToken)
    case None => RefreshStep(Failure(NotInDatabase), tokens)
    case Some(token) =>
      var verified := VerifyExpiration(tokens, token, now);
      if verified.result.Failure? then RefreshStep(Failure(verified.result.error), verified.tokens)
      else Rotate(settings, users, tokens, token, now, newValue)
  }

  /** Replay detection: once a value has been exchanged, presenting it again fails as unknown. */
  lemma ReplayAfterRotationFails(settings: Settings, users: Users.UserTable, tokens: TokenTable,
                                 requestToken: string, now: Time.Instant, newValue: string,
                                 later: Time.Instant, newValue2: string)
    requires Users.Wf(users) && Wf(tokens) && LinkedTo(tokens, users)
    requires ProcessRefreshToken(settings, users, tokens, requestToken, now, newValue).result.Success?
    requires newValue != requestToken
    ensures var after := ProcessRefreshToken(settings, users, tokens, requestToken, now, newValue).tokens;
      ProcessRefreshToken(settings, users, after, requestToken, later, newValue2) == RefreshStep(Failure(NotInDatabase), after)
  {
  }

  /** Replay detection holds for the code as written too: the rollback only concerns refused values. */
  lemma ReplayAfterRotationFailsAsWritten(settings: Settings, users: Users.UserTable, tokens: TokenTable,
                                          requestToken: string, now: Time.Instant, newValue: string,
                                          later: Time.Instant, newValue2: string)
    requires Users.Wf(users) && Wf(tokens) && LinkedTo(tokens, users)
    requires ProcessRefreshTokenAsWritten(settings, users, tokens, requestToken, now, newValue).result.Success?
    requires newValue != requestToken
    ensures var after := ProcessRefreshTokenAsWritten(settings, users, tokens, requestToken, now, newValue).tokens;
      ProcessRefreshTokenAsWritten(settings, users, after, requestToken, later, newValue2)
        == RefreshStep(Failure(NotInDatabase), after)
  {
  }

  /** The corrected rotation deletes an expired row, so a second attempt finds nothing. */
  lemma ExpiredRowRemoved(settings: Settings, users: Users.UserTable, tokens: TokenTable,
                          requestToken: string, now: Time.Instant, newValue: string, later: Time.Instant, newValue2: string)
    requires Users.Wf(users) && Wf(tokens) && LinkedTo(tokens, users)
    requires HasToken(tokens, requestToken) && FindByToken(tokens, requestToken).value.expiryDate < now
    ensures var after := ProcessRefreshToken(settings, users, tokens, requestToken, now, newValue).tokens;
      ProcessRefreshToken(settings, users, after, requestToken, later, newValue2).result == Failure(NotInDatabase)
  {
  }

  /** The access token a rotation returns names the session's owner while it is live. */
  lemma RotationAccessTokenNamesOwner(settings: Settings, users: Users.UserTable, tokens: TokenTable,
                                      requestToken: string, now: Time.Instant, newValue: string, at: Time.Instant)
    requires Users.Wf(users) && Wf(tokens) && LinkedTo(tokens, users)
    requires Jwt.ValidCodec(settings.jwt.codec)
    requires ProcessRefreshToken(settings, users, tokens, requestToken, now, newValue).result.Success?
    requires at <= now + settings.jwt.jwtExpiration
    ensures var r := ProcessRefreshToken(settings, users, tokens, requestToken, now, newValue);
      var owner := FindByToken(tokens, requestToken).value.user;
      Jwt.ExtractEmail(settings.jwt, r.result.value.accessToken, at) == Success(users[owner].username)
  {
    var owner := FindByToken(tokens, requestToken).value.user;
    Jwt.ExtractEmailRoundTrip(settings.jwt, users[owner], now, at);
  }
}

=== FILE: refresh_tokens.dfy ===
/** The `RefreshToken` entity (table `refresh_tokens`) and the table of sessions, one per user. */
module RefreshTokens {
  import opened Wrappers
  import Users

  /** A refresh session: the opaque token value, its deadline, and the owning user. */
  datatype RefreshToken = RefreshToken(token: string, expiryDate: int, user: Users.UserId)

  /** The one-to-one link makes the owning user the key of the table. */
  type TokenTable = map<Users.UserId, RefreshToken>

  /** Rows are filed under their owner and token values are unique across the table. */
  predicate Wf(tokens: TokenTable)
  {
    && (forall u :: u in tokens ==> tokens[u].user == u)
    && (forall a, b :: a in tokens && b in tokens && tokens[a].token == tokens[b].token ==> a == b)
  }

  /** Referential integrity: every session belongs to an existing user. */
  predicate LinkedTo(tokens: TokenTable, users: Users.UserTable)
  {
    forall u :: u in tokens ==> u in users
  }

  predicate HasToken(tokens: TokenTable, value: string)
  {
    exists u :: u in tokens && tokens[u].token == value
  }

  /** Some user other than `owner` holds `value`, so saving it for `owner` breaks the unique column. */
  predicate HeldByOther(tokens: TokenTable, owner: Users.UserId, value: string)
  {
    exists v :: v in tokens && v != owner && tokens[v].token == value
  }

  /** `findByToken`. */
  function FindByToken(tokens: TokenTable, value: string): (r: Option<RefreshToken>)
    requires Wf(tokens)
    ensures r.Some? <==> HasToken(tokens, value)
    ensures r.Some? ==> r.value.user in tokens && tokens[r.value.user] == r.value && r.value.token == value
  {
    if HasToken(tokens, value) then
      var u :| u in tokens && tokens[u].token == value;
      Some(tokens[u])
    else
      None
  }

  /** Every user other than `u` keeps exactly the session (or absence of one) it had. */
  ghost predicate OthersUnchanged(before: TokenTable, after: TokenTable, u: Users.UserId)
  {
    forall v :: v != u ==> (v in before <==> v in after) && (v in before ==> before[v] == after[v])
  }
}

=== FILE: time.dfy ===
/** Instants of the service clock, in milliseconds. The clock itself is a parameter of every operation. */
module Time {

  type Instant = int

  const MILLIS_PER_MINUTE: int := 60_000

  /** `a.isBefore(b)` / `a.compareTo(b) < 0` / `a.before(b)`: strictly earlier. */
  predicate IsBefore(a: Instant, b: Instant)
  {
    a < b
  }

  function PlusMinutes(t: Instant, minutes: int): Instant
  {
    t + minutes * MILLIS_PER_MINUTE
  }

  function PlusMillis(t: Instant, millis: int): Instant
  {
    t + millis
  }
}

=== FILE: user_activation_request.dfy ===
/**
 * `UserActivationRequest`: the bean-validation constraints on the activation form. Fields are
 * nullable strings; each annotation contributes its own violation.
 */
module UserActivationRequest {
  import opened Wrappers

  datatype Request = Request(
    username: Option<string>,
    tempPassword: Option<string>,
    otp: Option<string>,
    newPassword: Option<string>)

  /** One violation per failing annotation, named after its message. */
  datatype Violation =
    | UsernameRequired
    | TempPasswordRequired
    | OtpRequired
    | NewPasswordRequired
    | PasswordTooShort
    | PasswordTooWeak

  const MIN_PASSWORD_LENGTH: int := 8

  /** `@NotBlank`: present, and something is left once `trim` drops the characters up to U+0020. */
  predicate NotBlank(s: Option<string>)
  {
    s.Some? && exists i :: 0 <= i < |s.value| && s.value[i] > ' '
  }

  /** `@Size(min = 8)`: a missing value is not this annotation's concern. */
  predicate SizeOk(s: Option<string>)
  {
    s.None? || |s.value| >= MIN_PASSWORD_LENGTH
  }

  predicate IsAsciiDigit(c: char) { '0' <= c <= '9' }
  predicate IsAsciiLower(c: char) { 'a' <= c <= 'z' }
  predicate IsAsciiUpper(c: char) { 'A' <= c <= 'Z' }

  /** The characters `.` refuses to match without the DOTALL flag. */
  predicate IsLineTerminator(c: char)
  {
    c == '\n' || c == '\r' || c == '\U{0085}' || c == '\U{2028}' || c == '\U{2029}'
  }

  /** What one pass over a candidate password finds. */
  datatype Scan = Scan(digit: bool, lower: bool, upper: bool, terminator: bool)

  function ScanPassword(s: string): (r: Scan)
    ensures r.digit <==> exists i :: 0 <= i < |s| && IsAsciiDigit(s[i])
    ensures r.lower <==> exists i :: 0 <= i < |s| && IsAsciiLower(s[i])
    ensures r.upper <==> exists i :: 0 <= i < |s| && IsAsciiUpper(s[i])
    ensures r.terminator <==> exists i :: 0 <= i < |s| && IsLineTerminator(s[i])
    decreases |s|
  {
    if |s| == 0 then
      Scan(false, false, false, false)
    else
      var rest := ScanPassword(s[1..]);
      assert forall i :: 1 <= i < |s| ==> s[i] == s[1..][i - 1];
      Scan(rest.digit || IsAsciiDigit(s[0]), rest.lower || IsAsciiLower(s[0]),
           rest.upper || IsAsciiUpper(s[0]), rest.terminator || IsLineTerminator(s[0]))
  }

  /**
   * `@Pattern("^(?=.*[0-9])(?=.*[a-z])(?=.*[A-Z]).{8,}$")`, matched against the whole value: eight or
   * more characters, none a line terminator, with an ASCII digit, lower-case and upper-case letter.
   */
  predicate PatternOk(s: Option<string>)
  {
    s.None? ||
    var scan := ScanPassword(s.value);
    |s.value| >= MIN_PASSWORD_LENGTH && scan.digit && scan.lower && scan.upper && !scan.terminator
  }

  /** The violations bean validation reports for a request. */
  function Violations(req: Request): (v: set<Violation>)
    ensures UsernameRequired in v <==> !NotBlank(req.username)
    ensures TempPasswordRequired in v <==> !NotBlank(req.tempPassword)
    ensures OtpRequired in v <==> !NotBlank(req.otp)
    ensures NewPasswordRequired in v <==> !NotBlank(req.newPassword)
    ensures PasswordTooShort in v <==> !SizeOk(req.newPassword)
    ensures PasswordTooWeak in v <==> !PatternOk(req.newPassword)
  {
    (if NotBlank(req.username) then {} else {UsernameRequired})
    + (if NotBlank(req.tempPassword) then {} else {TempPasswordRequired})
    + (if NotBlank(req.otp) then {} else {OtpRequired})
    + (if NotBlank(req.newPassword) then {} else {NewPasswordRequired})
    + (if SizeOk(req.newPassword) then {} else {PasswordTooShort})
    + (if PatternOk(req.newPassword) then {} else {PasswordTooWeak})
  }

  predicate Valid(req: Request)
  {
    Violations(req) == {}
  }

  /** The acceptance rule for a new password, stated directly on its characters. */
  lemma NewPasswordRule(req: Request, p: string)
    requires req.newPassword == Some(p)
    ensures PasswordTooShort !in Violations(req) && PasswordTooWeak !in Violations(req) && NewPasswordRequired !in Violations(req)
      <==>
      && |p| >= 8
      && (exists i :: 0 <= i < |p| && IsAsciiDigit(p[i]))
      && (exists i :: 0 <= i < |p| && IsAsciiLower(p[i]))
      && (exists i :: 0 <= i < |p| && IsAsciiUpper(p[i]))
      && (forall i :: 0 <= i < |p| ==> !IsLineTerminator(p[i]))
  {
    if |p| >= 8 && ScanPassword(p).digit {
      var i :| 0 <= i < |p| && IsAsciiDigit(p[i]);
      assert p[i] > ' ';
    }
  }

  /** The pattern subsumes the other two annotations on a present password. */
  lemma PatternSubsumesNotBlankAndSize(p: string)
    requires PatternOk(Some(p))
    ensures NotBlank(Some(p)) && SizeOk(Some(p))
  {
    var i :| 0 <= i < |p| && IsAsciiDigit(p[i]);
    assert p[i] > ' ';
  }

  /** The code field carries no format rule: any non-blank text is as good as any other. */
  lemma OtpOnlyNeedsNonBlank(req: Request, code: string)
    requires Valid(req) && NotBlank(Some(code))
    ensures Valid(req.(otp := Some(code)))
  {
    assert Violations(req.(otp := Some(code))) == Violations(req);
  }
}

=== FILE: users.dfy ===
/** The `User` entity, its Spring Security view, and the user table with its two lookups. */
module Users {
  import opened Wrappers

  type UserId = nat

  /** The two roles the service distinguishes. */
  datatype Role = ADMIN | USER

  function RoleName(role: Role): string
  {
    match role
    case ADMIN => "ADMIN"
    case USER => "USER"
  }

  /**
   * A row of the `users` table. `username` is mandatory and unique; `email` is unique when present
   * and absent only for the bootstrap administrator; `password` holds an encoded secret.
   */
  datatype User = User(
    id: UserId,
    username: string,
    password: string,
    email: Option<string>,
    createdAt: int,
    role: Role,
    isFirstLogin: bool)

  /** `User.builder()...build()` without an explicit `isFirstLogin`: the default applies. */
  function Build(id: UserId, username: string, password: string, email: Option<string>, createdAt: int, role: Role): (u: User)
    ensures u.isFirstLogin
    ensures u.id == id && u.username == username && u.password == password
    ensures u.email == email && u.role == role && u.createdAt == createdAt
  {
    User(id, username, password, email, createdAt, role, true)
  }

  /** `getAuthorities`: a single authority naming the role. */
  function Authorities(u: User): (r: seq<string>)
    ensures |r| == 1 && |r[0]| == 5 + |RoleName(u.role)|
    ensures r[0][..5] == "ROLE_" && r[0][5..] == RoleName(u.role)
  {
    ["ROLE_" + RoleName(u.role)]
  }

  /** `getUsername`: the login name, never the e-mail. */
  function GetUsername(u: User): string
  {
    u.username
  }

  predicate IsAccountNonExpired(u: User) { true }
  predicate IsAccountNonLocked(u: User) { true }
  predicate IsCredentialsNonExpired(u: User) { true }
  predicate IsEnabled(u: User) { true }

  /** All four account-status flags Spring Security consults while authenticating. */
  predicate AccountUsable(u: User)
  {
    IsAccountNonExpired(u) && IsAccountNonLocked(u) && IsCredentialsNonExpired(u) && IsEnabled(u)
  }

  /** The authority string tells the two roles apart, so it determines the role. */
  lemma AuthoritiesDetermineRole(u: User, v: User)
    ensures Authorities(u) == Authorities(v) <==> u.role == v.role
  {
    if u.role != v.role {
      assert Authorities(u)[0][5] != Authorities(v)[0][5];
    }
  }

  type UserTable = map<UserId, User>

  /** The table's constraints: rows stored under their id, unique usernames, unique non-null e-mails. */
  predicate Wf(users: UserTable)
  {
    && (forall id :: id in users ==> users[id].id == id)
    && (forall a, b :: a in users && b in users && users[a].username == users[b].username ==> a == b)
    && (forall a, b :: a in users && b in users && users[a].email.Some? && users[a].email == users[b].email ==> a == b)
  }

  predicate HasEmail(users: UserTable, email: string)
  {
    exists id :: id in users && users[id].email == Some(email)
  }

  predicate HasUsername(users: UserTable, username: string)
  {
    exists id :: id in users && users[id].username == username
  }

  /** `findByEmail`. */
  function FindByEmail(users: UserTable, email: string): (r: Option<User>)
    requires Wf(users)
    ensures r.Some? <==> HasEmail(users, email)
    ensures r.Some? ==> r.value.id in users && users[r.value.id] == r.value && r.value.email == Some(email)
  {
    if HasEmail(users, email) then
      var id :| id in users && users[id].email == Some(email);
      Some(users[id])
    else
      None
  }

  /** `findByUsername`. */
  function FindByUsername(users: UserTable, username: string): (r: Option<User>)
    requires Wf(users)
    ensures r.Some? <==> HasUsername(users, username)
    ensures r.Some? ==> r.value.id in users && users[r.value.id] == r.value && r.value.username == username
  {
    if HasUsername(users, username) then
      var id :| id in users && users[id].username == username;
      Some(users[id])
    else
      None
  }

  /** `findByEmail(x).or(() -> findByUsername(x))`: the identifier is tried as an e-mail first. */
  function FindByEmailOrUsername(users: UserTable, identifier: string): (r: Option<User>)
    requires Wf(users)
    ensures HasEmail(users, identifier) ==> r == FindByEmail(users, identifier)
    ensures !HasEmail(users, identifier) ==> r == FindByUsername(users, identifier)
    ensures r.Some? ==> r.value.id in users && users[r.value.id] == r.value
  {
    match FindByEmail(users, identifier)
    case Some(u) => Some(u)
    case None => FindByUsername(users, identifier)
  }

  /** Any row whose e-mail is `email` is the row `FindByEmail` returns. */
  lemma FindByEmailUnique(users: UserTable, email: string, id: UserId)
    requires Wf(users) && id in users && users[id].email == Some(email)
    ensures FindByEmail(users, email) == Some(users[id])
  {
  }

  /** Any row whose username is `username` is the row `FindByUsername` returns. */
  lemma FindByUsernameUnique(users: UserTable, username: string, id: UserId)
    requires Wf(users) && id in users && users[id].username == username
    ensures FindByUsername(users, username) == Some(users[id])
  {
  }

  /** The identity invariant of the data model: only an administrator awaiting setup lacks an e-mail. */
  predicate EmailOnlyMissingForPendingAdmin(users: UserTable)
  {
    forall id :: id in users && users[id].email.None? ==> users[id].role == ADMIN && users[id].isFirstLogin
  }
}

=== FILE: wrappers.dfy ===
/** Failure-carrying values used in place of Java's null results and thrown exceptions. */
module Wrappers {

  /** A value that may be absent, as an `Optional` returned by a repository lookup. */
  datatype Option<+T> = None | Some(value: T)

  /** Either a value or the error the source would have thrown. */
  datatype Result<+T, +E> = Success(value: T) | Failure(error: E)
}
